=== FILE: README.md ===
# Gesture event queue and card-unmask validation, in Dafny

This project models two pieces of Chromium and proves properties of them.

**The browser-side gesture event queue**
(`content/browser/renderer_host/input/gesture_event_queue.cc`). Recognised
touch and touchpad gestures pass through four stages:

- **Fling controller.** It may take an event; fling starts and fling cancels
  are always handed to it.
- **Bounce reduction.** It is active while the debounce interval is above
  zero and no fling is in progress. While it is active and a scroll is in
  progress, every gesture other than a scroll update or a pinch is held back,
  scroll begin and scroll end included. The quiet-period timer forwards them
  once scrolling stops, and a further scroll update, while bounce reduction is
  active, drops them. When it is not active, every event goes out at once.
- **Forwarding.** Each forwarded event joins an acknowledgment buffer.
- **Acknowledgment ordering.** Acknowledgments may arrive in any order. They
  are matched to the first outstanding event of their kind, but completed
  events are reported to the client strictly in forwarding order. A
  re-entrancy guard makes acknowledgments that arrive during a report pass
  only record themselves on the buffer; the running pass walks that buffer
  and so picks them up.

**The card-unmask prompt's input validation**
(`chrome/android/java/src/org/chromium/chrome/browser/autofill/CardUnmaskPrompt.java`).
It classifies the CVC and expiration fields into one `ErrorType`:

- A two-digit year is expanded to the current century.
- A bad month or year is reported only once the user is done with that field.
- The positive button is enabled only when there is no error.
- Only the fields the error is about are highlighted.

Files:

| file | module | contents |
|---|---|---|
| `wrappers.dfy` | `Wrappers` | `Option` |
| `gesture_types.dfy` | `GestureTypes` | gesture kinds, events with latency, outstanding acknowledgments, the calls the queue makes, event projections |
| `ack_buffer.dfy` | `AckBuffer` | matching an acknowledgment to its entry, and the release pass with the client's re-entrant acknowledgments |
| `gesture_event_queue.dfy` | `GestureEventQueue` | the queue state and every entry point as a pure transition |
| `gesture_queue_run.dfy` | `GestureQueueRun` | the owner's calls as `Op`s, runs of them, and the queue-wide theorems |
| `card_unmask.dfy` | `CardUnmask` | `ErrorType`, Java `int` arithmetic, and the validation functions |

### How the environment is represented

- **Calls into collaborators.** Each queue entry point returns the next state
  and the list of calls it made, in order. The calls are sends, reports to
  the client, fling-controller notifications, and timer start and reset.
- **Fling controller.** Its answers are inputs. Two booleans say whether it
  takes an offered event and whether a fling is in progress. A set says
  which held-back events it takes when the timer fires.
- **Client reactions.** The client's synchronous reaction to each report of a
  release pass is an input list. Its k-th element lists the acknowledgments,
  in order, that the client sends while being told about the k-th event.
- **Timer.** The quiet-period timer is a flag plus the start and reset calls.
  Its firing is the entry point `SendScrollEndingEventsNow`.
- **Native and parsing inputs.** The native CVC check is a boolean.
  `Integer.parseInt` is an `Option` of a Java `int`.
- **Latency.** A latency trace is a set of components, and merging two
  traces is union.

### The timer's fling check

When the timer fires, each held-back event is offered only to the fling
controller's own filter (`gesture_event_queue.cc:227`), without the
fling-start and fling-cancel hand-off of `FlingControllerFilterEvent`. Fling
starts and cancels never reach the deferral queue (`Valid`), so the hand-off
would change nothing there.

## Model

| member | source | states |
|---|---|---|
| AckBuffer.FindFrom | content/browser/renderer_host/input/gesture_event_queue.cc:176-184 | the search returns the first position still awaiting the acknowledgment's kind, or reports that none does |
| AckBuffer.MarkFirst | content/browser/renderer_host/input/gesture_event_queue.cc:176-184 | recording an acknowledgment keeps the buffer's length and every entry's event, and never touches an entry that already has its acknowledgment |
| AckBuffer.MarkFirstTouchesFirstAwaiting | content/browser/renderer_host/input/gesture_event_queue.cc:176-184 | exactly the first entry awaiting the kind takes the acknowledgment, merging the latency and taking its result and source; nothing changes when no entry awaits that kind |
| AckBuffer.MarkEach | content/browser/renderer_host/input/gesture_event_queue.cc:176-184 | recording several acknowledgments in turn keeps the buffer's length and events and never touches an acknowledged entry; one acknowledgment is recorded exactly as an ordinary one is matched |
| AckBuffer.MarkEachAppend | content/browser/renderer_host/input/gesture_event_queue.cc:176-184 | recording one list of acknowledgments and then another is recording the two lists one after the other |
| AckBuffer.AfterReaction | content/browser/renderer_host/input/gesture_event_queue.cc:193-195 | the acknowledgments the client sends while being told about an event are matched like any other, in the order sent, and release nothing themselves; with no reaction the buffer is unchanged |
| AckBuffer.ReleaseFrom | content/browser/renderer_host/input/gesture_event_queue.cc:197-204 | the pass reports entries from the front while they are acknowledged; entries already reported never change, and the pass stops at the first entry that still waits |
| AckBuffer.Release | content/browser/renderer_host/input/gesture_event_queue.cc:191-205 | the reported entries are the buffer's leading entries, in order and all acknowledged; the rest stays with the front awaiting; nothing is reported, and the buffer is left as it was, exactly when the front was awaiting |
| AckBuffer.AfterReactions | content/browser/renderer_host/input/gesture_event_queue.cc:193-204 | reacting to reports moves no entry, changes no event, and leaves every entry that already had its acknowledgment as it was |
| AckBuffer.AfterReactionsRecords | content/browser/renderer_host/input/gesture_event_queue.cc:193-204 | the client reacting to the first n reports one at a time leaves the buffer it would have with all the acknowledgments it sent in those reactions recorded, in the order sent |
| AckBuffer.ReleaseFromRecordsReactions | content/browser/renderer_host/input/gesture_event_queue.cc:193-204 | a pass resumed at any cursor ends with the buffer it walks equal to the buffer after the client has reacted to every report the pass made from that cursor on |
| AckBuffer.ReleaseRecordsReactions | content/browser/renderer_host/input/gesture_event_queue.cc:193-204 | nothing the client sends during a pass is lost: the reported entries followed by those left are the buffer with every acknowledgment sent in reaction to a report of the pass recorded on it, in order |
| AckBuffer.ReleaseFromReportsOnlyAcked | content/browser/renderer_host/input/gesture_event_queue.cc:197-204 | a pass resumed at any cursor reports the entry j places past the cursor only if that entry was already acknowledged once the client had reacted to the j reports made before it |
| AckBuffer.ReleaseReportsOnlyAcked | content/browser/renderer_host/input/gesture_event_queue.cc:193-204 | the j-th reported entry was acknowledged by the acknowledgments sent before its own report, never by those sent in reaction to it; and the pass stops at an entry that still waits after every reaction to the reports it made |
| AckBuffer.ReleaseKeepsEventOrder | content/browser/renderer_host/input/gesture_event_queue.cc:191-205 | the reported events followed by those left are the buffer's events before the pass, even with re-entrant acknowledgments |
| AckBuffer.ReleaseWithoutReactionSplits | content/browser/renderer_host/input/gesture_event_queue.cc:197-204 | without re-entrant acknowledgments, the reported entries and those left are the buffer, split into front and rest |
| AckBuffer.ReleaseLoop | content/browser/renderer_host/input/gesture_event_queue.cc:197-204 | the erase-front loop computes the same pass: its reports are a prefix of the buffer and it ends settled |
| GestureEventQueue.Init | content/browser/renderer_host/input/gesture_event_queue.cc:27-37 | a new queue has nothing outstanding or held back, is not scrolling, has no timer running and no pass under way, and is valid |
| GestureEventQueue.FlingControllerFilterEvent | content/browser/renderer_host/input/gesture_event_queue.cc:57-80 | the event counts as handled if and only if the fling controller takes it or it is a fling start or cancel; an untaken fling start or cancel is handed to the controller; the queue is unchanged |
| GestureEventQueue.ShouldForwardForBounceReduction | content/browser/renderer_host/input/gesture_event_queue.cc:109-147 | with bounce reduction off, or during a fling, everything goes out untouched; a scroll update goes out, starts the timer if not scrolling and resets it otherwise, sets scrolling, and drops everything held back; pinches go out untouched; anything else goes out if and only if not scrolling, and otherwise is held at the tail of the deferral queue |
| GestureEventQueue.ForwardGestureEvent | content/browser/renderer_host/input/gesture_event_queue.cc:149-163 | forwarding adds exactly one awaiting entry at the tail of the buffer and sends the event exactly once and last; before the send it registers the fling observer for a scroll begin, unregisters it for a scroll end, and makes no other call for any other kind |
| GestureEventQueue.DebounceOrForwardEvent | content/browser/renderer_host/input/gesture_event_queue.cc:45-55 | the event is sent if and only if bounce reduction lets it through. When it is held back, it joins the tail of the deferral queue, nothing else changes and no call is made. When it goes out, it becomes the newest outstanding entry and only the forwarding's calls are made. A scroll update under active bounce reduction also sets scrolling, starts or resets the timer, and drops everything held back. Any other event that goes out leaves the debounce state and the held-back events alone |
| GestureEventQueue.AckCompletedEvents | content/browser/renderer_host/input/gesture_event_queue.cc:191-205 | a nested call does nothing, and nothing is reported while the front entry still waits; otherwise the buffer ends settled; only reports are made, each of an entry whose acknowledgment has arrived; and the events reported, followed by those left, are the events outstanding before |
| GestureEventQueue.ProcessGestureAck | content/browser/renderer_host/input/gesture_event_queue.cc:165-189 | an acknowledgment with nothing outstanding changes nothing; during a pass it only records itself on the first entry awaiting its kind; otherwise the release pass runs over the buffer with it so recorded, the buffer ends settled, only entries whose acknowledgment has arrived are reported, events are reported in buffer order, and nothing is sent |
| GestureEventQueue.AckCalls | content/browser/renderer_host/input/gesture_event_queue.cc:203-212 | releasing entries sends the client one acknowledgment per entry, in buffer order, each carrying that entry with its event, latency, source and state, and sends no event onward |
| GestureEventQueue.AckCallsReportEvents | content/browser/renderer_host/input/gesture_event_queue.cc:200-203 | the client is told about the released entries' events, one report each, in order |
| GestureEventQueue.ForwardSurvivors | content/browser/renderer_host/input/gesture_event_queue.cc:224-230 | each held-back event the fling controller does not take is sent, in order, and joins the tail of the buffer; the calls made are exactly those of forwarding each of them in turn, and nothing else changes |
| GestureEventQueue.SendScrollEndingEventsNow | content/browser/renderer_host/input/gesture_event_queue.cc:219-231 | the timer firing ends scrolling and empties the deferral queue; with nothing held back it makes no call; otherwise its calls are exactly those of forwarding, in order, the held-back events the fling controller does not take |
| GestureEventQueue.QueueDeferredEvents | content/browser/renderer_host/input/gesture_event_queue.cc:82-85 | stashing appends the event to the side queue and changes nothing else |
| GestureEventQueue.StashAll | content/browser/renderer_host/input/gesture_event_queue.cc:82-85 | stashing a series of events changes nothing but the side queue |
| GestureEventQueue.StashAllAppends | content/browser/renderer_host/input/gesture_event_queue.cc:82-85 | stashing a series of events appends them to the side queue in order |
| GestureEventQueue.StashThenTake | content/browser/renderer_host/input/gesture_event_queue.cc:82-91 | the side queue is first in, first out: taking after stashes returns the earlier contents followed by the stashed events, in order, and leaves the queue otherwise as it was with the side queue empty |
| GestureEventQueue.TakeDeferredEvents | content/browser/renderer_host/input/gesture_event_queue.cc:87-91 | taking returns the whole side queue and leaves it empty, changing nothing else |
| GestureQueueRun.SurvivorsMembers | content/browser/renderer_host/input/gesture_event_queue.cc:224-230 | a held-back event is forwarded on timer fire if and only if the fling controller does not take it |
| GestureQueueRun.NothingCapturedForwardsAll | content/browser/renderer_host/input/gesture_event_queue.cc:224-230 | when the fling controller takes none of them, all held-back events are forwarded in their original order |
| GestureQueueRun.OutstandingsCarryEvents | content/browser/renderer_host/input/gesture_event_queue.cc:155 | the entries forwarding adds carry the forwarded events in order, each awaiting its acknowledgment |
| GestureQueueRun.DebouncePreservesValid | content/browser/renderer_host/input/gesture_event_queue.cc:109-163 | the debounce and forward path keeps the queue invariant: no fling kinds outstanding or held back, buffer settled, the timer armed exactly while scrolling, events held back only while scrolling |
| GestureQueueRun.AckPreservesValid | content/browser/renderer_host/input/gesture_event_queue.cc:165-205 | acknowledgment processing keeps the queue invariant |
| GestureQueueRun.TimerPreservesValid | content/browser/renderer_host/input/gesture_event_queue.cc:219-231 | the timer firing keeps the queue invariant |
| GestureQueueRun.Apply | content/browser/renderer_host/input/gesture_event_queue.cc:45-80 | each call of the owner, with the fling filter run before the debounce stage, keeps the queue invariant |
| GestureQueueRun.ApplyBalances | content/browser/renderer_host/input/gesture_event_queue.cc:149-205 | in every call, the events outstanding before, then those sent, equal the events reported, then those outstanding after |
| GestureQueueRun.RunBalances | content/browser/renderer_host/input/gesture_event_queue.cc:149-205 | the same conservation law holds over any sequence of calls |
| GestureQueueRun.AcksFollowForwardingOrder | content/browser/renderer_host/input/gesture_event_queue.cc:176-177 | from a fresh queue the client is told about events in exactly the order they were sent: the reported events are a prefix of the sent events, and the outstanding events are the rest |
| GestureQueueRun.ApplyReportsAcknowledged | content/browser/renderer_host/input/gesture_event_queue.cc:188-212 | no call into the queue tells the client about an event whose acknowledgment has not arrived |
| GestureQueueRun.RunReportsAcknowledged | content/browser/renderer_host/input/gesture_event_queue.cc:188-212 | over any sequence of calls, from any valid state, every report to the client carries an acknowledged entry |
| GestureQueueRun.MarkFirstDistinct | content/browser/renderer_host/input/gesture_event_queue.cc:176-184 | with distinct kinds outstanding, an entry still awaiting after an acknowledgment was awaiting before and is of another kind |
| GestureQueueRun.AckRunDrains | content/browser/renderer_host/input/gesture_event_queue.cc:165-205 | when acknowledgments cover every outstanding entry of distinct kinds, in any order, the buffer drains completely |
| GestureQueueRun.DistinctAcksDrain | content/browser/renderer_host/input/gesture_event_queue.cc:165-205 | the same for the queue's runs: the buffer drains and nothing is sent |
| GestureQueueRun.DistinctAcksReportInSendOrder | content/browser/renderer_host/input/gesture_event_queue.cc:174-205 | whatever order the acknowledgments arrive in, the client is told about every outstanding event in forwarding order |
| GestureQueueRun.NestedAckReleasedInSamePass | content/browser/renderer_host/input/gesture_event_queue.cc:193-204 | an acknowledgment the client sends while being told about an event, and which completes the next entry, gets that entry reported right after, in the same pass |
| GestureQueueRun.NestedAcksReleasedInSamePass | content/browser/renderer_host/input/gesture_event_queue.cc:176-204 | two acknowledgments the client sends during one report are matched in the order sent; when they complete the next two entries, both are reported in the same pass, in buffer order |
| GestureQueueRun.ScrollUpdateDropsHeldEvent | content/browser/renderer_host/input/gesture_event_queue.cc:121-145 | scroll update, tap, scroll update: the tap is held back and then dropped; only the two updates are sent |
| GestureQueueRun.TimerReleasesHeldEvent | content/browser/renderer_host/input/gesture_event_queue.cc:219-231 | scroll update, tap, timer: the tap is sent exactly once when the timer fires, unless the fling controller takes it then |
| CardUnmask.Code | chrome/android/java/src/org/chromium/chrome/browser/autofill/CardUnmaskPrompt.java:103-111 | every error type has a code from 1 to 7 |
| CardUnmask.FromCode | chrome/android/java/src/org/chromium/chrome/browser/autofill/CardUnmaskPrompt.java:103-111 | exactly the codes 1 to 7 name an error type |
| CardUnmask.CodeRoundTrip | chrome/android/java/src/org/chromium/chrome/browser/autofill/CardUnmaskPrompt.java:103-111 | decoding a code gives back the error type, and encoding a decoded code gives back the code |
| CardUnmask.JavaRem100 | chrome/android/java/src/org/chromium/chrome/browser/autofill/CardUnmaskPrompt.java:730 | Java's `% 100` leaves a remainder with the sign of the dividend, of size below 100, and differing from the dividend by a multiple of 100 |
| CardUnmask.Month | chrome/android/java/src/org/chromium/chrome/browser/autofill/CardUnmaskPrompt.java:737-747 | the month is the number the user typed when the text parses, and -1 when it does not |
| CardUnmask.FourDigitYear | chrome/android/java/src/org/chromium/chrome/browser/autofill/CardUnmaskPrompt.java:726-735 | an unparsable or negative year gives -1, and a year of 100 or more is kept as typed |
| CardUnmask.TwoDigitYearInCurrentCentury | chrome/android/java/src/org/chromium/chrome/browser/autofill/CardUnmaskPrompt.java:730 | for a current year from 0 to 100 below the `int` maximum, a two-digit year becomes the year of the current century with those last two digits |
| CardUnmask.ExpirationDateErrorType | chrome/android/java/src/org/chromium/chrome/browser/autofill/CardUnmaskPrompt.java:593-624 | the check waits for the calendar if and only if the current date is unknown, and reports only expiration-related verdicts |
| CardUnmask.ExpirationVerdicts | chrome/android/java/src/org/chromium/chrome/browser/autofill/CardUnmaskPrompt.java:594-623 | a month error if and only if the date is known, the month is out of range and the user is done with it; a year error likewise for the year window; an expiry error if and only if month and year are in range and the month of this year has passed; otherwise not enough information while a bad field is unfinished or the date is unknown |
| CardUnmask.ExpirationPassesIff | chrome/android/java/src/org/chromium/chrome/browser/autofill/CardUnmaskPrompt.java:599-623 | the expiration check passes if and only if the current date is known and the entered month is valid, not in the past, and at most ten years on |
| CardUnmask.CombineCvc | chrome/android/java/src/org/chromium/chrome/browser/autofill/CardUnmaskPrompt.java:566-583 | a valid CVC leaves the expiration verdict alone, and an invalid CVC never yields "no error" |
| CardUnmask.ExpirationAndCvcErrorType | chrome/android/java/src/org/chromium/chrome/browser/autofill/CardUnmaskPrompt.java:560-584 | without the expiration request only "no error", CVC error or "not enough information" can come out, and the calendar is never waited for |
| CardUnmask.CombinedVerdicts | chrome/android/java/src/org/chromium/chrome/browser/autofill/CardUnmaskPrompt.java:564-583 | each combined verdict characterised: no error if and only if the CVC is valid and the date passes; a CVC error if and only if the user has left an invalid CVC and nothing else is known to be wrong; both if and only if the user has left an invalid CVC and the date is wrong; "not enough information" cases likewise |
| CardUnmask.HighlightFor | chrome/android/java/src/org/chromium/chrome/browser/autofill/CardUnmaskPrompt.java:497-522 | "no error" and "not enough information" clear every highlight |
| CardUnmask.HighlightMatchesBlame | chrome/android/java/src/org/chromium/chrome/browser/autofill/CardUnmaskPrompt.java:541-547 | the CVC field is highlighted if and only if the error blames the CVC; the month if and only if it blames the date other than the year alone; the year if and only if it blames the date other than the month alone |
| CardUnmask.Validate | chrome/android/java/src/org/chromium/chrome/browser/autofill/CardUnmaskPrompt.java:357-361 | the positive button is disabled if and only if there is an error; a highlighted field always comes with a disabled button |
| CardUnmask.ButtonEnabledIff | chrome/android/java/src/org/chromium/chrome/browser/autofill/CardUnmaskPrompt.java:357-360 | the positive button is enabled if and only if the CVC is valid and, when asked for, the expiration date is known to be good |
| CardUnmask.CvcOnlyPromptIgnoresDate | chrome/android/java/src/org/chromium/chrome/browser/autofill/CardUnmaskPrompt.java:564 | a prompt that does not ask for the expiration date never blames or highlights it, and its button depends on the CVC alone |

## Left out

- Fling controller internals: fling curves, fling progress, tap suppression and scheduler observation. The controller is outside this core. Its verdicts are inputs, and its notifications are recorded calls.
- `StopFling`, `FlingCancellationIsDeferred`, `CurrentFlingVelocity`, `FlingInProgressForTest` and `GetTouchpadTapSuppressionController`: one-line pass-throughs to the fling controller, so nothing of the queue's own is left to model.
- Trace events and `DLOG` output for an unexpected acknowledgment: diagnostics only. The unexpected acknowledgment itself is modelled as a no-op.
- Latency details: a latency trace is a set, and `AddNewLatencyFrom` is union.
- The real timer, delays and task posting: the timer is a flag plus start and reset calls, and its firing is an explicit entry point.
- Re-entrant sends: a client that forwards new gestures, rather than acknowledgments, while being told about an acknowledgment is not modelled.
- Acknowledgments sent from inside `SendGestureEventImmediately` (`gesture_event_queue.cc:162`) are not modelled. For an offered event the send is the last thing the queue does, so such an acknowledgment behaves like an `Ack` call right after the `Offer`. During the timer drain it would run a release pass between two forwards, and a run of `Op`s cannot express that interleaving.
- The initial value of the re-entrancy flag comes from `gesture_event_queue.h`. That file is not part of this model, so the flag is taken to start cleared.
- GestureEventQueue.SendScrollEndingEventsNow: the fling controller's verdicts on the held-back events are given as a fixed set of positions. The model does not let those verdicts depend on the events forwarded earlier in the same drain.
- Android UI of the prompt: views, error messages, accessibility announcements, `moveFocus`, the calendar's asynchronous lookup and the re-validation it triggers. The model keeps the values validation reads and the `waitsForCalendar` request.
- CardUnmask.TwoDigitYearInCurrentCentury: stated only for a current year from 0 to 100 below the `int` maximum, the range the calendar reports. Above it, Java's wrap-around can move the expanded year out of the century. Below 0 the statement fails without any wrap-around: for a current year of -1, Java's truncating `% 100` gives -1, so the expansion adds 0 and "17" stays 17, which lies in century 0 rather than -1.
- CardUnmask.HighlightFor: the early return below Android Lollipop, where no highlight is changed at all, is not modelled.

=== FILE: ack_buffer.dfy ===
/**
 The acknowledgment-ordering buffer of the gesture event queue: a FIFO of
 forwarded events, each waiting for its acknowledgment. Acknowledgments are
 matched to entries by kind and may arrive in any order; completed entries are
 handed back to the client only from the front, so in forwarding order.
 */
module AckBuffer {
  import opened Wrappers
  import opened GestureTypes

  /** The arguments of one `ProcessGestureAck` call. */
  datatype AckCall = AckCall(source: AckSource, result: AckState, kind: Kind, latency: Latency)

  /** What the client does, synchronously, each time a release pass reports
      an event to it: the k-th element lists the acknowledgments it sends, in
      order, while being told about the k-th report of the pass; reports past
      the end of the sequence draw no reaction. */
  type Reactions = seq<seq<AckCall>>

  /** The reactions still to come after the first report. */
  function Later(reactions: Reactions): Reactions
  {
    if |reactions| == 0 then [] else reactions[1..]
  }

  /** The acknowledgments the client sends in reaction to the first `n`
      reports, in the order it sends them. */
  function Recorded(reactions: Reactions, n: nat): seq<AckCall>
  {
    if n == 0 || |reactions| == 0 then [] else reactions[0] + Recorded(reactions[1..], n - 1)
  }

  /** The entry still waits for an acknowledgment of this kind. */
  predicate Awaits(p: PendingAck, kind: Kind) {
    p.state == Unknown && p.event.kind == kind
  }

  /** The first position at or after `from` that awaits `kind`. */
  function FindFrom(buf: seq<PendingAck>, kind: Kind, from: nat): (r: Option<nat>)
    requires from <= |buf|
    ensures r.Some? ==> from <= r.value < |buf| && Awaits(buf[r.value], kind)
    ensures r.Some? ==> forall j :: from <= j < r.value ==> !Awaits(buf[j], kind)
    ensures r.None? ==> forall j :: from <= j < |buf| ==> !Awaits(buf[j], kind)
    decreases |buf| - from
  {
    if from == |buf| then None
    else if Awaits(buf[from], kind) then Some(from)
    else FindFrom(buf, kind, from + 1)
  }

  /** The entry an acknowledgment of `kind` is for: the first one still awaiting it. */
  function FirstAwaiting(buf: seq<PendingAck>, kind: Kind): Option<nat>
  {
    FindFrom(buf, kind, 0)
  }

  /** The entry after `call` has been recorded on it: its latency trace absorbs
      the acknowledgment's, and its state and source are those of the call. */
  function Acked(p: PendingAck, call: AckCall): PendingAck
  {
    p.(latency := p.latency + call.latency, state := call.result, source := call.source)
  }

  /** The matching step of `ProcessGestureAck`: record `call` on the first
      entry that still awaits its kind; an acknowledgment nobody awaits is
      ignored. No entry moves, no event changes, and an entry that already has
      its acknowledgment is left alone. */
  function MarkFirst(buf: seq<PendingAck>, call: AckCall): (r: seq<PendingAck>)
    ensures |r| == |buf|
    ensures forall i :: 0 <= i < |buf| ==> r[i].event == buf[i].event
    ensures forall i :: 0 <= i < |buf| && buf[i].state != Unknown ==> r[i] == buf[i]
  {
    match FirstAwaiting(buf, call.kind)
    case None => buf
    case Some(i) =>
      var r := buf[i := Acked(buf[i], call)];
      assert forall j :: 0 <= j < |buf| && j != i ==> r[j] == buf[j];
      r
  }

  /** Acknowledgments are matched, not queued: exactly the first entry that
      awaits the call's kind takes the call, every other entry is unchanged,
      and when no entry awaits that kind nothing changes at all. */
  lemma MarkFirstTouchesFirstAwaiting(buf: seq<PendingAck>, call: AckCall)
    ensures (forall j :: 0 <= j < |buf| ==> !Awaits(buf[j], call.kind)) ==> MarkFirst(buf, call) == buf
    ensures forall i :: 0 <= i < |buf| && Awaits(buf[i], call.kind)
                          && (forall j :: 0 <= j < i ==> !Awaits(buf[j], call.kind))
                        ==> MarkFirst(buf, call) == buf[i := Acked(buf[i], call)]
  {
    match FirstAwaiting(buf, call.kind)
    case None =>
    case Some(k) =>
      forall i | 0 <= i < |buf| && Awaits(buf[i], call.kind)
                 && (forall j :: 0 <= j < i ==> !Awaits(buf[j], call.kind))
        ensures i == k
      {
      }
  }

  /** The buffer is at rest: empty, or its front still waits. */
  predicate Settled(buf: seq<PendingAck>) {
    |buf| == 0 || buf[0].state == Unknown
  }

  /** The buffer after recording each of `calls`, in order, the way
      `ProcessGestureAck` records one. No entry moves, no event changes, and
      an entry that already has its acknowledgment is left alone; a single
      call is recorded exactly as `MarkFirst` records it. */
  function MarkEach(buf: seq<PendingAck>, calls: seq<AckCall>): (r: seq<PendingAck>)
    ensures |r| == |buf|
    ensures forall i :: 0 <= i < |buf| ==> r[i].event == buf[i].event
    ensures forall i :: 0 <= i < |buf| && buf[i].state != Unknown ==> r[i] == buf[i]
    ensures |calls| == 0 ==> r == buf
    ensures |calls| == 1 ==> r == MarkFirst(buf, calls[0])
    decreases |calls|
  {
    if |calls| == 0 then buf else MarkEach(MarkFirst(buf, calls[0]), calls[1..])
  }

  /** Recording `x` and then `y` is recording `x` followed by `y`. */
  lemma {:induction false} MarkEachAppend(buf: seq<PendingAck>, x: seq<AckCall>, y: seq<AckCall>)
    ensures MarkEach(MarkEach(buf, x), y) == MarkEach(buf, x + y)
    decreases |x|
  {
    if |x| == 0 {
      assert x + y == y;
    } else {
      assert (x + y)[0] == x[0] && (x + y)[1..] == x[1..] + y;
      MarkEachAppend(MarkFirst(buf, x[0]), x[1..], y);
    }
  }

  /** The buffer after the client has reacted to one report: the nested
      acknowledgments it sent are recorded like any other, and because a pass
      is already running they release nothing themselves; nothing moves. */
  function AfterReaction(buf: seq<PendingAck>, reactions: Reactions): (r: seq<PendingAck>)
    ensures |r| == |buf|
    ensures forall i :: 0 <= i < |buf| ==> r[i].event == buf[i].event
    ensures forall i :: 0 <= i < |buf| && buf[i].state != Unknown ==> r[i] == buf[i]
    ensures |reactions| > 0 ==> r == MarkEach(buf, reactions[0])
    ensures |reactions| == 0 ==> r == buf
  {
    if |reactions| == 0 then buf else MarkEach(buf, reactions[0])
  }

  /** A release pass in progress: the buffer, in which the first `count`
      entries have been reported (and are, in the source, already erased). */
  datatype Pass = Pass(buf: seq<PendingAck>, count: nat)

  /** The rest of a release pass once the first `k` entries are reported: keep
      reporting the entry at the cursor while it has its acknowledgment,
      letting the client react after each report. Reported entries never
      change, no event changes, and the pass stops at the first entry that
      still waits, or at the end. */
  function ReleaseFrom(buf: seq<PendingAck>, reactions: Reactions, k: nat): (r: Pass)
    requires k <= |buf|
    requires forall i :: 0 <= i < k ==> buf[i].state != Unknown
    ensures |r.buf| == |buf| && k <= r.count <= |buf|
    ensures forall i :: 0 <= i < |buf| ==> r.buf[i].event == buf[i].event
    ensures forall i :: 0 <= i < k ==> r.buf[i] == buf[i]
    ensures forall i :: 0 <= i < r.count ==> r.buf[i].state != Unknown
    ensures r.count == |buf| || r.buf[r.count].state == Unknown
    ensures k < |buf| && buf[k].state != Unknown ==> r.count > k && r.buf[k] == buf[k]
    decreases |buf| - k
  {
    if k == |buf| || buf[k].state == Unknown then Pass(buf, k)
    else ReleaseFrom(AfterReaction(buf, reactions), Later(reactions), k + 1)
  }

  /** The outcome of one release pass: what is left in the buffer, and the
      entries reported to the client, in the order they were reported. */
  datatype Released = Released(remaining: seq<PendingAck>, released: seq<PendingAck>)

  /** One pass of `AckCompletedEvents`: the reported entries are the leading
      entries of the buffer, event for event and in order, each acknowledged;
      what is left is the rest of the buffer, event for event; and the pass
      ends with the buffer settled. It reports nothing exactly when the buffer
      was settled to begin with. */
  function Release(buf: seq<PendingAck>, reactions: Reactions): (r: Released)
    ensures |r.released| + |r.remaining| == |buf|
    ensures forall i :: 0 <= i < |r.released| ==> r.released[i].event == buf[i].event
    ensures forall i :: 0 <= i < |r.remaining| ==> r.remaining[i].event == buf[|r.released| + i].event
    ensures forall i :: 0 <= i < |r.released| ==> r.released[i].state != Unknown
    ensures Settled(r.remaining)
    ensures r.released == [] <==> Settled(buf)
    ensures Settled(buf) ==> r.remaining == buf
    ensures !Settled(buf) ==> r.released[0] == buf[0]
  {
    var p := ReleaseFrom(buf, reactions, 0);
    Released(p.buf[p.count..], p.buf[..p.count])
  }

  /** Recording the reaction to one report and then those to the next `m`
      reports records the reactions to the first `m + 1` reports. */
  lemma ReactionThenRest(buf: seq<PendingAck>, reactions: Reactions, m: nat)
    ensures MarkEach(AfterReaction(buf, reactions), Recorded(Later(reactions), m)) == MarkEach(buf, Recorded(reactions, m + 1))
  {
    if |reactions| > 0 {
      MarkEachAppend(buf, reactions[0], Recorded(reactions[1..], m));
    }
  }

  /** One step of a pass: the entry at the cursor has its acknowledgment, so
      it is reported, the client reacts, and the pass goes on from the next
      position with every entry before it still acknowledged. */
  lemma ReleaseFromStep(buf: seq<PendingAck>, reactions: Reactions, k: nat)
    requires k < |buf| && buf[k].state != Unknown
    requires forall i :: 0 <= i < k ==> buf[i].state != Unknown
    ensures forall i :: 0 <= i < k + 1 ==> AfterReaction(buf, reactions)[i].state != Unknown
    ensures ReleaseFrom(buf, reactions, k) == ReleaseFrom(AfterReaction(buf, reactions), Later(reactions), k + 1)
  {
  }

  /** The buffer after the client has reacted to each of the first `n`
      reports, one report at a time, in the order the reports were made. */
  function AfterReactions(buf: seq<PendingAck>, reactions: Reactions, n: nat): (r: seq<PendingAck>)
    ensures |r| == |buf|
    ensures forall i :: 0 <= i < |buf| ==> r[i].event == buf[i].event
    ensures forall i :: 0 <= i < |buf| && buf[i].state != Unknown ==> r[i] == buf[i]
    decreases n
  {
    if n == 0 then buf else AfterReactions(AfterReaction(buf, reactions), Later(reactions), n - 1)
  }

  /** Reacting to `n + 1` reports is reacting to the first and then to the
      next `n`. */
  lemma AfterReactionsStep(buf: seq<PendingAck>, reactions: Reactions, n: nat)
    ensures AfterReactions(buf, reactions, n + 1) == AfterReactions(AfterReaction(buf, reactions), Later(reactions), n)
  {
  }

  /** Reacting to the first `n` reports one at a time records, in order, every
      acknowledgment the client sent during those reactions. */
  lemma {:induction false} AfterReactionsRecords(buf: seq<PendingAck>, reactions: Reactions, n: nat)
    ensures AfterReactions(buf, reactions, n) == MarkEach(buf, Recorded(reactions, n))
    decreases n
  {
    if n == 0 {
      assert Recorded(reactions, 0) == [];
    } else {
      AfterReactionsRecords(AfterReaction(buf, reactions), Later(reactions), n - 1);
      ReactionThenRest(buf, reactions, n - 1);
    }
  }

  /** The rest of a pass from cursor `k` leaves the buffer it walks equal to
      the buffer after the client has reacted to every report it makes. */
  predicate WalkRecords(buf: seq<PendingAck>, reactions: Reactions, k: nat)
    requires k <= |buf|
    requires forall i :: 0 <= i < k ==> buf[i].state != Unknown
  {
    var p := ReleaseFrom(buf, reactions, k);
    p.buf == AfterReactions(buf, reactions, p.count - k)
  }

  /** If the rest of the pass after one report records the client's
      reactions, so does the pass that makes that report first. */
  lemma WalkRecordsStep(buf: seq<PendingAck>, reactions: Reactions, k: nat)
    requires k < |buf| && buf[k].state != Unknown
    requires forall i :: 0 <= i < k ==> buf[i].state != Unknown
    requires forall i :: 0 <= i < k + 1 ==> AfterReaction(buf, reactions)[i].state != Unknown
    requires WalkRecords(AfterReaction(buf, reactions), Later(reactions), k + 1)
    ensures WalkRecords(buf, reactions, k)
  {
    var after := AfterReaction(buf, reactions);
    ReleaseFromStep(buf, reactions, k);
    var p := ReleaseFrom(after, Later(reactions), k + 1);
    var n := p.count - (k + 1);
    AfterReactionsStep(buf, reactions, n);
  }

  lemma {:induction false} ReleaseFromRecordsReactions(buf: seq<PendingAck>, reactions: Reactions, k: nat)
    requires k <= |buf|
    requires forall i :: 0 <= i < k ==> buf[i].state != Unknown
    ensures WalkRecords(buf, reactions, k)
    decreases |buf| - k
  {
    if k < |buf| && buf[k].state != Unknown {
      ReleaseFromStep(buf, reactions, k);
      ReleaseFromRecordsReactions(AfterReaction(buf, reactions), Later(reactions), k + 1);
      WalkRecordsStep(buf, reactions, k);
    }
  }

  /** Nothing the client sends during the pass is lost: the entries reported,
      followed by those left, are the buffer with every acknowledgment the
      client sent in reaction to a report of this pass recorded on it, in the
      order sent. Reactions to reports the pass never makes are not recorded. */
  lemma ReleaseRecordsReactions(buf: seq<PendingAck>, reactions: Reactions)
    ensures Release(buf, reactions).released + Release(buf, reactions).remaining
         == MarkEach(buf, Recorded(reactions, |Release(buf, reactions).released|))
  {
    var p := ReleaseFrom(buf, reactions, 0);
    ReleaseFromRecordsReactions(buf, reactions, 0);
    AfterReactionsRecords(buf, reactions, p.count);
    assert p.buf[..p.count] + p.buf[p.count..] == p.buf;
  }

  /** The rest of a pass from cursor `k` reports the entry at `k + j` only if
      it is already acknowledged once the client has reacted to the `j`
      reports before it. */
  predicate WalkReportsAcked(buf: seq<PendingAck>, reactions: Reactions, k: nat)
    requires k <= |buf|
    requires forall i :: 0 <= i < k ==> buf[i].state != Unknown
  {
    forall j :: 0 <= j < ReleaseFrom(buf, reactions, k).count - k ==>
      AfterReactions(buf, reactions, j)[k + j].state != Unknown
  }

  /** If the rest of the pass after one report reports only acknowledged
      entries, so does the pass that makes that report first. */
  lemma WalkReportsAckedStep(buf: seq<PendingAck>, reactions: Reactions, k: nat)
    requires k < |buf| && buf[k].state != Unknown
    requires forall i :: 0 <= i < k ==> buf[i].state != Unknown
    requires forall i :: 0 <= i < k + 1 ==> AfterReaction(buf, reactions)[i].state != Unknown
    requires WalkReportsAcked(AfterReaction(buf, reactions), Later(reactions), k + 1)
    ensures WalkReportsAcked(buf, reactions, k)
  {
    ReleaseFromStep(buf, reactions, k);
    forall j | 0 <= j < ReleaseFrom(buf, reactions, k).count - k
      ensures AfterReactions(buf, reactions, j)[k + j].state != Unknown
    {
      if j > 0 {
        AfterReactionsStep(buf, reactions, j - 1);
      }
    }
  }

  lemma {:induction false} ReleaseFromReportsOnlyAcked(buf: seq<PendingAck>, reactions: Reactions, k: nat)
    requires k <= |buf|
    requires forall i :: 0 <= i < k ==> buf[i].state != Unknown
    ensures WalkReportsAcked(buf, reactions, k)
    decreases |buf| - k
  {
    if k < |buf| && buf[k].state != Unknown {
      ReleaseFromStep(buf, reactions, k);
      ReleaseFromReportsOnlyAcked(AfterReaction(buf, reactions), Later(reactions), k + 1);
      WalkReportsAckedStep(buf, reactions, k);
    } else {
      assert ReleaseFrom(buf, reactions, k).count == k;
    }
  }

  /** The pass tells the client about an entry only once that entry has its
      acknowledgment: the j-th reported entry was already acknowledged when
      only the reactions to the j earlier reports had been recorded, and the
      pass stops at the first entry that still waits once the reactions to
      every report made have been recorded. An acknowledgment the client
      sends while being told about an entry can therefore release later
      entries, but never that entry itself. */
  lemma ReleaseReportsOnlyAcked(buf: seq<PendingAck>, reactions: Reactions)
    ensures forall j :: 0 <= j < |Release(buf, reactions).released| ==>
              MarkEach(buf, Recorded(reactions, j))[j].state != Unknown
    ensures var n := |Release(buf, reactions).released|;
            n < |buf| ==> MarkEach(buf, Recorded(reactions, n))[n].state == Unknown
  {
    var p := ReleaseFrom(buf, reactions, 0);
    ReleaseFromReportsOnlyAcked(buf, reactions, 0);
    ReleaseFromRecordsReactions(buf, reactions, 0);
    forall j | 0 <= j <= p.count
      ensures MarkEach(buf, Recorded(reactions, j)) == AfterReactions(buf, reactions, j)
    {
      AfterReactionsRecords(buf, reactions, j);
    }
  }

  /** The reported events followed by the events left behind are exactly the
      events the buffer held before the pass. */
  lemma ReleaseKeepsEventOrder(buf: seq<PendingAck>, reactions: Reactions)
    ensures Events(Release(buf, reactions).released) + Events(Release(buf, reactions).remaining) == Events(buf)
  {
    var p := ReleaseFrom(buf, reactions, 0);
    var r := Release(buf, reactions);
    assert r.released + r.remaining == p.buf[..p.count] + p.buf[p.count..] == p.buf;
    EventsAppend(r.released, r.remaining);
    EventsPointwise(p.buf, buf);
  }

  lemma {:induction false} ReleaseFromWithoutReaction(buf: seq<PendingAck>, k: nat)
    requires k <= |buf|
    requires forall i :: 0 <= i < k ==> buf[i].state != Unknown
    ensures ReleaseFrom(buf, [], k).buf == buf
    decreases |buf| - k
  {
    if k < |buf| && buf[k].state != Unknown {
      ReleaseFromWithoutReaction(buf, k + 1);
    }
  }

  /** Without re-entrant acknowledgments a pass splits the buffer: the reported
      entries, unchanged, followed by the rest, unchanged. */
  lemma ReleaseWithoutReactionSplits(buf: seq<PendingAck>)
    ensures Release(buf, []).released + Release(buf, []).remaining == buf
  {
    ReleaseFromWithoutReaction(buf, 0);
    var p := ReleaseFrom(buf, [], 0);
    assert p.buf[..p.count] + p.buf[p.count..] == p.buf;
  }

  /** `AckCompletedEvents` as the source writes it: a loop that reports the
      front entry while it has its acknowledgment (the cursor `k` stands for
      the entries already erased). It computes the pass `Release` describes,
      and every entry it reports is the one that was at that position in the
      buffer it started from. */
  method ReleaseLoop(buf: seq<PendingAck>, reactions: Reactions) returns (remaining: seq<PendingAck>, released: seq<PendingAck>)
    ensures Released(remaining, released) == Release(buf, reactions)
    ensures |released| <= |buf|
    ensures forall i :: 0 <= i < |released| ==> released[i].event == buf[i].event
    ensures Settled(remaining)
  {
    var b := buf;
    var pending := reactions;
    var k := 0;
    while k < |b| && b[k].state != Unknown
      invariant k <= |b| == |buf|
      invariant forall i :: 0 <= i < k ==> b[i].state != Unknown
      invariant forall i :: 0 <= i < |b| ==> b[i].event == buf[i].event
      invariant ReleaseFrom(b, pending, k) == ReleaseFrom(buf, reactions, 0)
      decreases |b| - k
    {
      b := AfterReaction(b, pending);
      pending := Later(pending);
      k := k + 1;
    }
    remaining := b[k..];
    released := b[..k];
  }
}

=== FILE: card_unmask.dfy ===
/**
 Input validation of the card-unmask prompt: the user re-enters a card's CVC
 and, when asked, its expiration month and year. Each time a field changes or
 loses focus the prompt classifies what it holds into one `ErrorType`, enables
 the positive button only when there is no error, and highlights the fields
 the error is about.

 The Android views are reduced to what the classification reads: each field's
 parsed value, its text length and its focus flags; the CVC check, done by
 native code, is an input.
 */
module CardUnmask {
  import opened Wrappers

  /** The outcome of validating the prompt's fields. */
  datatype ErrorType =
    | ExpirationMonth     // the month is not a month
    | ExpirationYear      // the year is outside the accepted window
    | ExpirationDate      // the card has expired
    | Cvc                 // the CVC is invalid
    | CvcAndExpiration    // the CVC and the expiration date are both wrong
    | NotEnoughInfo       // the user is not done typing
    | NoError             // everything checks out

  /** The integer the prompt uses for each error type. */
  function Code(e: ErrorType): (c: int)
    ensures 1 <= c <= 7
  {
    match e
    case ExpirationMonth => 1
    case ExpirationYear => 2
    case ExpirationDate => 3
    case Cvc => 4
    case CvcAndExpiration => 5
    case NotEnoughInfo => 6
    case NoError => 7
  }

  /** The error type an integer stands for, if any. */
  function FromCode(c: int): (r: Option<ErrorType>)
    ensures r.Some? <==> 1 <= c <= 7
  {
    if c == 1 then Some(ExpirationMonth)
    else if c == 2 then Some(ExpirationYear)
    else if c == 3 then Some(ExpirationDate)
    else if c == 4 then Some(Cvc)
    else if c == 5 then Some(CvcAndExpiration)
    else if c == 6 then Some(NotEnoughInfo)
    else if c == 7 then Some(NoError)
    else None
  }

  /** The codes are a faithful encoding: decoding a code gives back the error
      type, and every code in range names exactly one error type. */
  lemma CodeRoundTrip(e: ErrorType, c: int)
    ensures FromCode(Code(e)) == Some(e)
    ensures 1 <= c <= 7 ==> Code(FromCode(c).value) == c
  {
  }

  // Java `int` arithmetic.

  const IntMin: int := -0x8000_0000
  const IntMax: int := 0x7fff_ffff

  /** A Java `int`. */
  type JavaInt = x: int | IntMin <= x <= IntMax

  /** An integer reduced to Java `int` the way Java arithmetic overflows. */
  function Wrap32(x: int): (r: JavaInt)
    ensures (r - x) % 0x1_0000_0000 == 0
    ensures IntMin <= x <= IntMax ==> r == x
  {
    (x - IntMin) % 0x1_0000_0000 + IntMin
  }

  /** Java's `a % 100`: the remainder of division truncated toward zero,
      which takes the sign of `a`. */
  function JavaRem100(a: int): (r: int)
    ensures a >= 0 ==> 0 <= r < 100
    ensures a < 0 ==> -100 < r <= 0
    ensures (a - r) % 100 == 0
  {
    if a >= 0 then a % 100 else -((-a) % 100)
  }

  /** The length both expiration fields have once fully typed. */
  const ExpirationFieldsLength: nat := 2

  /** The current date, as the calendar lookup reports it; -1 while the
      lookup has not finished. */
  datatype Calendar = Calendar(thisYear: JavaInt, thisMonth: JavaInt)

  predicate CalendarKnown(cal: Calendar) {
    cal.thisYear != -1 && cal.thisMonth != -1
  }

  /** An expiration field: its text parsed as a Java `int` (None when it does
      not parse), the text's length, and its focus state. `didFocus` records
      that the field has gained or lost focus at least once. */
  datatype Field = Field(parsed: Option<JavaInt>, textLength: nat, focused: bool, didFocus: bool)

  /** The CVC field, reduced to the native validity check and focus state. */
  datatype CvcField = CvcField(valid: bool, focused: bool, didFocus: bool)

  /** The user is done with an expiration field: it is fully typed, or they
      have been in it and left. */
  predicate DoneWith(f: Field) {
    f.textLength == ExpirationFieldsLength || (!f.focused && f.didFocus)
  }

  /** The user is done with the CVC field: they have been in it and left. */
  predicate DoneWithCvc(f: CvcField) {
    f.didFocus && !f.focused
  }

  /** The month the user entered, -1 when the text does not parse. */
  function Month(f: Field): (m: JavaInt)
    ensures f.parsed.None? ==> m == -1
    ensures f.parsed.Some? ==> m == f.parsed.value
  {
    f.parsed.GetOr(-1)
  }

  /** The expiration year the user entered, as a four-digit year: a two-digit
      value is taken to be in the current century; anything that does not
      parse, or is negative, is -1. */
  function FourDigitYear(parsed: Option<JavaInt>, thisYear: JavaInt): (y: JavaInt)
    ensures parsed.None? ==> y == -1
    ensures parsed.Some? && parsed.value < 0 ==> y == -1
    ensures parsed.Some? && parsed.value >= 100 ==> y == parsed.value
  {
    match parsed
    case None => -1
    case Some(v) =>
      if v < 0 then -1
      else if v < 100 then Wrap32(v + (thisYear - JavaRem100(thisYear)))
      else v
  }

  /** For a current year in the common era (short of the very top of the
      `int` range), a two-digit year becomes the year of the current century
      that ends in those two digits. */
  lemma TwoDigitYearInCurrentCentury(v: JavaInt, thisYear: JavaInt)
    requires 0 <= v < 100
    requires 0 <= thisYear <= IntMax - 100
    ensures FourDigitYear(Some(v), thisYear) / 100 == thisYear / 100
    ensures FourDigitYear(Some(v), thisYear) % 100 == v
  {
    var base := thisYear - JavaRem100(thisYear);
    assert base == thisYear / 100 * 100;
    assert v + base == thisYear / 100 * 100 + v;
  }

  /** The month is a calendar month. */
  predicate MonthInRange(m: int) {
    1 <= m <= 12
  }

  /** The year lies in the accepted window: from this year to ten years on
      (the upper bound computed in Java `int`). */
  predicate YearInWindow(y: int, thisYear: JavaInt) {
    thisYear <= y <= Wrap32(thisYear + 10)
  }

  /** The result of the expiration check: the error found, and whether the
      check could not run yet and asked to be redone once the calendar lookup
      finishes. */
  datatype DateCheck = DateCheck(error: ErrorType, waitsForCalendar: bool)

  /** The expiration-date check. Until the current date is known it reports
      not enough information. A bad month is reported once the user is done
      with the month field, a bad year once they are done with the year field;
      before that, not enough information. A month of this year that has
      passed means the card has expired. */
  function ExpirationDateErrorType(cal: Calendar, month: Field, year: Field): (r: DateCheck)
    ensures r.waitsForCalendar <==> !CalendarKnown(cal)
    ensures r.error in {ExpirationMonth, ExpirationYear, ExpirationDate, NotEnoughInfo, NoError}
  {
    if !CalendarKnown(cal) then DateCheck(NotEnoughInfo, true)
    else
      var m := Month(month);
      if !MonthInRange(m) then
        DateCheck(if DoneWith(month) then ExpirationMonth else NotEnoughInfo, false)
      else
        var y := FourDigitYear(year.parsed, cal.thisYear);
        if !YearInWindow(y, cal.thisYear) then
          DateCheck(if DoneWith(year) then ExpirationYear else NotEnoughInfo, false)
        else if y == cal.thisYear && m < cal.thisMonth then
          DateCheck(ExpirationDate, false)
        else
          DateCheck(NoError, false)
  }

  /** Each expiration verdict, characterised by the field values alone. */
  lemma ExpirationVerdicts(cal: Calendar, month: Field, year: Field)
    ensures var e := ExpirationDateErrorType(cal, month, year).error;
            var m := Month(month);
            var y := FourDigitYear(year.parsed, cal.thisYear);
            && (e == ExpirationMonth <==> CalendarKnown(cal) && !MonthInRange(m) && DoneWith(month))
            && (e == ExpirationYear <==>
                  CalendarKnown(cal) && MonthInRange(m) && !YearInWindow(y, cal.thisYear) && DoneWith(year))
            && (e == ExpirationDate <==>
                  CalendarKnown(cal) && MonthInRange(m) && YearInWindow(y, cal.thisYear)
                  && y == cal.thisYear && m < cal.thisMonth)
            && (e == NotEnoughInfo <==>
                  !CalendarKnown(cal)
                  || (!MonthInRange(m) && !DoneWith(month))
                  || (MonthInRange(m) && !YearInWindow(y, cal.thisYear) && !DoneWith(year)))
  {
  }

  /** The card's expiration month is not before the current month, and at
      most ten years away. */
  predicate NotExpired(cal: Calendar, m: int, y: int) {
    && MonthInRange(m)
    && YearInWindow(y, cal.thisYear)
    && (y > cal.thisYear || m >= cal.thisMonth)
  }

  /** The expiration check passes exactly when the current date is known and
      the entered date is a valid month, at most ten years away, and not in
      the past. */
  lemma ExpirationPassesIff(cal: Calendar, month: Field, year: Field)
    ensures ExpirationDateErrorType(cal, month, year).error == NoError
        <==> CalendarKnown(cal) && NotExpired(cal, Month(month), FourDigitYear(year.parsed, cal.thisYear))
  {
  }

  /** Folds the CVC check into the expiration verdict. A valid CVC leaves the
      verdict alone. An invalid CVC the user is done with is reported, on its
      own when nothing else is wrong (or not known to be), together with the
      expiration date otherwise. An invalid CVC the user is still typing only
      turns "no error" into "not enough information". */
  function CombineCvc(expiration: ErrorType, cvc: CvcField): (e: ErrorType)
    ensures cvc.valid ==> e == expiration
    ensures !cvc.valid ==> e != NoError
    ensures expiration != NoError ==> e != NoError
  {
    if cvc.valid then expiration
    else if DoneWithCvc(cvc) then
      (if expiration == NoError || expiration == NotEnoughInfo then Cvc else CvcAndExpiration)
    else if expiration == NoError then NotEnoughInfo
    else expiration
  }

  /** The whole prompt as validation sees it. */
  datatype Prompt = Prompt(requestExpiration: bool, cal: Calendar, month: Field, year: Field, cvc: CvcField)

  /** The combined check: the expiration check runs only when the prompt asks
      for the expiration date. */
  function ExpirationAndCvcErrorType(p: Prompt): (r: DateCheck)
    ensures !p.requestExpiration ==> !r.waitsForCalendar && r.error in {NoError, Cvc, NotEnoughInfo}
    ensures p.requestExpiration ==> r.waitsForCalendar == !CalendarKnown(p.cal)
  {
    var base := if p.requestExpiration then ExpirationDateErrorType(p.cal, p.month, p.year)
                else DateCheck(NoError, false);
    base.(error := CombineCvc(base.error, p.cvc))
  }

  /** Each combined verdict, in terms of the CVC and the expiration verdict. */
  lemma CombinedVerdicts(p: Prompt)
    ensures var e := ExpirationAndCvcErrorType(p).error;
            var x := if p.requestExpiration then ExpirationDateErrorType(p.cal, p.month, p.year).error else NoError;
            && (e == NoError <==> p.cvc.valid && x == NoError)
            && (e == Cvc <==> !p.cvc.valid && DoneWithCvc(p.cvc) && (x == NoError || x == NotEnoughInfo))
            && (e == CvcAndExpiration <==>
                  !p.cvc.valid && DoneWithCvc(p.cvc) && x in {ExpirationMonth, ExpirationYear, ExpirationDate})
            && (e == NotEnoughInfo <==>
                  (p.cvc.valid && x == NotEnoughInfo) || (!p.cvc.valid && !DoneWithCvc(p.cvc) && x in {NoError, NotEnoughInfo}))
            && (e in {ExpirationMonth, ExpirationYear, ExpirationDate} <==>
                  x in {ExpirationMonth, ExpirationYear, ExpirationDate} && (p.cvc.valid || !DoneWithCvc(p.cvc)))
            && (e in {ExpirationMonth, ExpirationYear, ExpirationDate} ==> e == x)
  {
  }

  /** Which fields are drawn with the error underline. */
  datatype Highlight = Highlight(month: bool, year: bool, cvc: bool)

  /** The highlight an error type calls for. "No error" and "not enough
      information" clear every highlight. */
  function HighlightFor(e: ErrorType): (h: Highlight)
    ensures e == NoError || e == NotEnoughInfo ==> h == Highlight(false, false, false)
  {
    match e
    case NoError => Highlight(false, false, false)
    case NotEnoughInfo => Highlight(false, false, false)
    case _ =>
      Highlight(
        e == ExpirationMonth || e == ExpirationDate || e == CvcAndExpiration,
        e == ExpirationYear || e == ExpirationDate || e == CvcAndExpiration,
        e == Cvc || e == CvcAndExpiration)
  }

  /** The error blames the expiration date. */
  predicate BlamesExpiration(e: ErrorType) {
    e.ExpirationMonth? || e.ExpirationYear? || e.ExpirationDate? || e.CvcAndExpiration?
  }

  /** The error blames the CVC. */
  predicate BlamesCvc(e: ErrorType) {
    e.Cvc? || e.CvcAndExpiration?
  }

  /** A field is highlighted exactly when the error is about it: the CVC for
      the CVC errors, the month unless only the year is wrong, the year unless
      only the month is wrong. */
  lemma HighlightMatchesBlame(e: ErrorType)
    ensures HighlightFor(e).cvc <==> BlamesCvc(e)
    ensures HighlightFor(e).month <==> BlamesExpiration(e) && !e.ExpirationYear?
    ensures HighlightFor(e).year <==> BlamesExpiration(e) && !e.ExpirationMonth?
    ensures HighlightFor(e) != Highlight(false, false, false) <==> BlamesExpiration(e) || BlamesCvc(e)
  {
  }

  /** What one validation pass decides. */
  datatype Validation = Validation(error: ErrorType, buttonDisabled: bool, highlight: Highlight, waitsForCalendar: bool)

  /** One validation pass: classify, disable the positive button unless there
      is no error, and highlight the fields the error is about. */
  function Validate(p: Prompt): (v: Validation)
    ensures v.buttonDisabled <==> v.error != NoError
    ensures v.highlight.cvc ==> v.buttonDisabled && !p.cvc.valid
    ensures (v.highlight.month || v.highlight.year) ==> v.buttonDisabled && p.requestExpiration
  {
    var r := ExpirationAndCvcErrorType(p);
    Validation(r.error, r.error != NoError, HighlightFor(r.error), r.waitsForCalendar)
  }

  /** The positive button is enabled exactly when the CVC is valid and, if
      the prompt asks for it, the expiration date is known to be good. */
  lemma ButtonEnabledIff(p: Prompt)
    ensures !Validate(p).buttonDisabled
        <==> p.cvc.valid && (!p.requestExpiration
               || (CalendarKnown(p.cal) && NotExpired(p.cal, Month(p.month), FourDigitYear(p.year.parsed, p.cal.thisYear))))
  {
    ExpirationPassesIff(p.cal, p.month, p.year);
  }

  /** A prompt that does not ask for the expiration date never blames it,
      never highlights the date fields and never waits for the calendar. */
  lemma CvcOnlyPromptIgnoresDate(p: Prompt)
    requires !p.requestExpiration
    ensures !BlamesExpiration(Validate(p).error)
    ensures !Validate(p).highlight.month && !Validate(p).highlight.year
    ensures !Validate(p).waitsForCalendar
    ensures Validate(p).buttonDisabled <==> !p.cvc.valid
  {
  }
}

=== FILE: gesture_event_queue.dfy ===
/**
 The gesture event queue: it offers each gesture to the fling controller,
 holds back every gesture other than a scroll update or a pinch while a
 scroll is in progress and bounce reduction is active (a debounce interval
 above zero and no fling in progress; the reduction is driven by a one-shot
 timer), forwards the rest to the client, and
 hands acknowledgments back to the client in the order the events were
 forwarded. Every entry point is a pure transition from one queue state to the
 next, together with the calls it makes into its collaborators.

 The fling controller is not modelled: its verdict on an event (whether it
 takes the event) and whether a fling is in progress are inputs of the entry
 points that consult it.
 */
module GestureEventQueue {
  import opened Wrappers
  import opened GestureTypes
  import opened AckBuffer

  /** The queue's configuration; only the debounce interval matters here.
      An interval of zero or less switches bounce reduction off. */
  datatype Config = Config(debounceIntervalMs: int)

  /** The queue's state. */
  datatype Queue = Queue(
    config: Config,
    awaitingAck: seq<PendingAck>,        // forwarded events awaiting their acknowledgment
    deferral: seq<GestureWithLatency>,   // events held back while scrolling
    deferred: seq<GestureWithLatency>,   // the owner's side stash
    scrolling: bool,                     // a scroll is in progress
    timerArmed: bool,                    // the debounce timer is running
    processingAcks: bool)                // a release pass is running

  /** A transition: the next state and the calls made on the way. */
  datatype Step = Step(q: Queue, calls: seq<ClientCall>)

  /** A transition that also answers a yes/no question. */
  datatype Verdict = Verdict(yes: bool, q: Queue, calls: seq<ClientCall>)

  predicate DebounceEnabled(q: Queue) {
    q.config.debounceIntervalMs > 0
  }

  /** No fling start or fling cancel is queued anywhere it could be forwarded from. */
  predicate NoFlingKinds(es: seq<GestureWithLatency>) {
    forall i :: 0 <= i < |es| ==> !IsFlingKind(es[i].event.kind)
  }

  /** None of `evs` is a fling start or fling cancel. */
  predicate NoFlingEvents(evs: seq<GestureEvent>) {
    forall i :: 0 <= i < |evs| ==> !IsFlingKind(evs[i].kind)
  }

  /** What holds of the queue between calls into it: the fling controller's
      events are never outstanding or held back, the acknowledgment buffer is
      at rest, the timer runs exactly while scrolling, events are only held
      back while scrolling, and no release pass is running. */
  predicate Valid(q: Queue) {
    && NoFlingEvents(Events(q.awaitingAck))
    && NoFlingKinds(q.deferral)
    && Settled(q.awaitingAck)
    && q.scrolling == q.timerArmed
    && (|q.deferral| > 0 ==> q.scrolling)
    && !q.processingAcks
  }

  /** A freshly constructed queue: nothing outstanding, nothing held back,
      not scrolling. */
  function Init(config: Config): (q: Queue)
    ensures Valid(q)
    ensures q.awaitingAck == [] && q.deferral == [] && q.deferred == []
    ensures !q.scrolling && !q.timerArmed && !q.processingAcks
    ensures q.config == config
  {
    Queue(config, [], [], [], false, false, false)
  }

  /** The new entry forwarding `e` puts in the acknowledgment buffer. */
  function Outstanding(e: GestureWithLatency): PendingAck
  {
    PendingAck(e.event, e.latency, Unknown, UnknownSource)
  }

  /** Offers an event to the fling controller, which takes it when
      `flingFiltered` (its own verdict) holds. A fling start or fling cancel it
      did not take is handed to it anyway. The answer is whether the event is
      now taken care of; the queue itself never changes and nothing is sent. */
  function FlingControllerFilterEvent(q: Queue, e: GestureWithLatency, flingFiltered: bool): (r: Verdict)
    ensures r.q == q
    ensures r.yes <==> flingFiltered || IsFlingKind(e.event.kind)
    ensures SentEvents(r.calls) == [] && AckedEvents(r.calls) == []
    ensures !flingFiltered && e.event.kind == FlingStart ==> r.calls == [FlingStartHandled(e)]
    ensures !flingFiltered && e.event.kind == FlingCancel ==> r.calls == [FlingCancelHandled(e)]
    ensures flingFiltered || !IsFlingKind(e.event.kind) ==> r.calls == []
  {
    if flingFiltered then Verdict(true, q, [])
    else if e.event.kind == FlingStart then Verdict(true, q, [FlingStartHandled(e)])
    else if e.event.kind == FlingCancel then Verdict(true, q, [FlingCancelHandled(e)])
    else Verdict(false, q, [])
  }

  /** Bounce reduction: decide whether `e` goes out now. When it does not, it
      is held at the tail of the deferral queue until the timer fires or a
      scroll update drops it. A scroll update starts (or extends) the quiet
      period and drops whatever was held back. */
  function ShouldForwardForBounceReduction(q: Queue, e: GestureWithLatency, flingInProgress: bool): (r: Verdict)
    ensures !DebounceEnabled(q) || flingInProgress ==> r == Verdict(true, q, [])
    ensures DebounceEnabled(q) && !flingInProgress && e.event.kind == ScrollUpdate ==>
              && r.yes && r.q.scrolling && r.q.timerArmed && r.q.deferral == []
              && r.calls == [if q.scrolling then TimerReset else TimerStart]
    ensures IsPinchKind(e.event.kind) ==> r == Verdict(true, q, [])
    ensures DebounceEnabled(q) && !flingInProgress && e.event.kind != ScrollUpdate && !IsPinchKind(e.event.kind) ==>
              && (r.yes <==> !q.scrolling)
              && r.calls == []
              && r.q == (if q.scrolling then q.(deferral := q.deferral + [e]) else q)
    ensures !r.yes ==> r.q.deferral == q.deferral + [e]
    ensures r.q.awaitingAck == q.awaitingAck && r.q.deferred == q.deferred
    ensures r.q.config == q.config && r.q.processingAcks == q.processingAcks
  {
    if !DebounceEnabled(q) || flingInProgress then Verdict(true, q, [])
    else match e.event.kind
      case ScrollUpdate =>
        Verdict(true, q.(scrolling := true, timerArmed := true, deferral := []),
                [if q.scrolling then TimerReset else TimerStart])
      case PinchBegin => Verdict(true, q, [])
      case PinchEnd => Verdict(true, q, [])
      case PinchUpdate => Verdict(true, q, [])
      case _ =>
        if q.scrolling then Verdict(false, q.(deferral := q.deferral + [e]), [])
        else Verdict(true, q, [])
  }

  /** The calls forwarding `e` makes: the scroll-begin/scroll-end bookkeeping
      with the fling controller, then the send. */
  function ForwardCall(e: GestureWithLatency): seq<ClientCall>
  {
    (if e.event.kind == ScrollBegin then [RegisterFlingObserver]
     else if e.event.kind == ScrollEnd then [UnregisterFlingObserver]
     else []) + [Send(e)]
  }

  /** The calls forwarding each of `es` in turn makes. */
  function ForwardCalls(es: seq<GestureWithLatency>): seq<ClientCall>
  {
    if |es| == 0 then [] else ForwardCall(es[0]) + ForwardCalls(es[1..])
  }

  /** Forwards `e`: one new outstanding entry at the tail of the acknowledgment
      buffer, the scroll-begin/scroll-end bookkeeping with the fling
      controller, then exactly one send. Nothing else changes. */
  function ForwardGestureEvent(q: Queue, e: GestureWithLatency): (r: Step)
    requires !IsFlingKind(e.event.kind)
    ensures r.q == q.(awaitingAck := q.awaitingAck + [Outstanding(e)])
    ensures SentEvents(r.calls) == [e.event] && AckedEvents(r.calls) == []
    ensures |r.calls| > 0 && r.calls[|r.calls| - 1] == Send(e) && |r.calls| <= 2
    ensures e.event.kind == ScrollBegin ==> r.calls == [RegisterFlingObserver, Send(e)]
    ensures e.event.kind == ScrollEnd ==> r.calls == [UnregisterFlingObserver, Send(e)]
    ensures e.event.kind != ScrollBegin && e.event.kind != ScrollEnd ==> r.calls == [Send(e)]
  {
    var observer := if e.event.kind == ScrollBegin then [RegisterFlingObserver]
                    else if e.event.kind == ScrollEnd then [UnregisterFlingObserver]
                    else [];
    SentEventsAppend(observer, [Send(e)]);
    AckedEventsAppend(observer, [Send(e)]);
    Step(q.(awaitingAck := q.awaitingAck + [Outstanding(e)]), ForwardCall(e))
  }

  /** Runs `e` through bounce reduction and forwards it if it survives. The
      answer is whether it was sent: then it is the only event sent and the
      newest outstanding entry; otherwise nothing is sent and it is held at
      the tail of the deferral queue. */
  function DebounceOrForwardEvent(q: Queue, e: GestureWithLatency, flingInProgress: bool): (r: Verdict)
    requires !IsFlingKind(e.event.kind)
    ensures r.yes <==> !DebounceEnabled(q) || flingInProgress || e.event.kind == ScrollUpdate
                       || IsPinchKind(e.event.kind) || !q.scrolling
    ensures r.yes ==> SentEvents(r.calls) == [e.event] && r.q.awaitingAck == q.awaitingAck + [Outstanding(e)]
    ensures !r.yes ==> SentEvents(r.calls) == [] && r.q.awaitingAck == q.awaitingAck
                       && r.q.deferral == q.deferral + [e]
    ensures AckedEvents(r.calls) == []
    ensures r.q.deferred == q.deferred && r.q.config == q.config && r.q.processingAcks == q.processingAcks
    ensures !r.yes ==> r.q == q.(deferral := q.deferral + [e]) && r.calls == []
    ensures r.yes && !(DebounceEnabled(q) && !flingInProgress && e.event.kind == ScrollUpdate) ==>
              r.q == q.(awaitingAck := q.awaitingAck + [Outstanding(e)]) && r.calls == ForwardCall(e)
    ensures DebounceEnabled(q) && !flingInProgress && e.event.kind == ScrollUpdate ==>
              && r.q == q.(awaitingAck := q.awaitingAck + [Outstanding(e)], scrolling := true, timerArmed := true, deferral := [])
              && r.calls == [if q.scrolling then TimerReset else TimerStart] + ForwardCall(e)
  {
    var d := ShouldForwardForBounceReduction(q, e, flingInProgress);
    if !d.yes then
      Verdict(false, d.q, d.calls)
    else
      var s := ForwardGestureEvent(d.q, e);
      SentEventsAppend(d.calls, s.calls);
      AckedEventsAppend(d.calls, s.calls);
      Verdict(true, s.q, d.calls + s.calls)
  }

  /** The client calls for a sequence of reported entries, one per entry. */
  function AckCalls(ps: seq<PendingAck>): (r: seq<ClientCall>)
    ensures SentEvents(r) == []
    ensures |r| == |ps| && forall i :: 0 <= i < |ps| ==> r[i] == AckToClient(ps[i])
  {
    if |ps| == 0 then [] else [AckToClient(ps[0])] + AckCalls(ps[1..])
  }

  lemma {:induction false} AckCallsReportEvents(ps: seq<PendingAck>)
    ensures AckedEvents(AckCalls(ps)) == Events(ps)
    decreases |ps|
  {
    if |ps| > 0 {
      AckCallsReportEvents(ps[1..]);
      AckedEventsAppend([AckToClient(ps[0])], AckCalls(ps[1..]));
    }
  }

  /** Hands every acknowledged entry at the front of the buffer to the client,
      in order. A call made while a pass is already running does nothing; the
      running pass carries on draining. Only reports are made, each of an
      entry whose acknowledgment has arrived, and nothing is reported while
      the front entry still waits. */
  function AckCompletedEvents(q: Queue, reactions: Reactions): (r: Step)
    ensures q.processingAcks ==> r == Step(q, [])
    ensures !q.processingAcks ==> Settled(r.q.awaitingAck)
    ensures Settled(q.awaitingAck) ==> r == Step(q, [])
    ensures forall i :: 0 <= i < |r.calls| ==> r.calls[i].AckToClient? && r.calls[i].acked.state != Unknown
    ensures AckedEvents(r.calls) + Events(r.q.awaitingAck) == Events(q.awaitingAck)
    ensures r.q == q.(awaitingAck := r.q.awaitingAck)
    ensures SentEvents(r.calls) == []
  {
    if q.processingAcks then
      assert [] + Events(q.awaitingAck) == Events(q.awaitingAck);
      Step(q, [])
    else
      var pass := Release(q.awaitingAck, reactions);
      ReleaseKeepsEventOrder(q.awaitingAck, reactions);
      AckCallsReportEvents(pass.released);
      Step(q.(awaitingAck := pass.remaining), AckCalls(pass.released))
  }

  /** Records an acknowledgment on the first outstanding entry of its kind
      that still awaits one, then releases what has become releasable. An
      acknowledgment while nothing is outstanding is unexpected and changes
      nothing; one that matches no entry changes no entry. Outside a running
      pass, the pass runs over the buffer with the acknowledgment recorded,
      and each report carries an entry whose acknowledgment has arrived. */
  function ProcessGestureAck(q: Queue, call: AckCall, reactions: Reactions): (r: Step)
    ensures |q.awaitingAck| == 0 ==> r == Step(q, [])
    ensures q.processingAcks ==> r == Step(q.(awaitingAck := MarkFirst(q.awaitingAck, call)), [])
    ensures !q.processingAcks ==> Settled(r.q.awaitingAck)
    ensures !q.processingAcks && |q.awaitingAck| > 0 ==>
              && r.q.awaitingAck == Release(MarkFirst(q.awaitingAck, call), reactions).remaining
              && r.calls == AckCalls(Release(MarkFirst(q.awaitingAck, call), reactions).released)
    ensures forall i :: 0 <= i < |r.calls| ==> r.calls[i].AckToClient? && r.calls[i].acked.state != Unknown
    ensures AckedEvents(r.calls) + Events(r.q.awaitingAck) == Events(q.awaitingAck)
    ensures r.q == q.(awaitingAck := r.q.awaitingAck)
    ensures SentEvents(r.calls) == []
  {
    if |q.awaitingAck| == 0 then
      assert [] + Events(q.awaitingAck) == Events(q.awaitingAck);
      Step(q, [])
    else
      EventsPointwise(MarkFirst(q.awaitingAck, call), q.awaitingAck);
      AckCompletedEvents(q.(awaitingAck := MarkFirst(q.awaitingAck, call)), reactions)
  }

  /** The events of `es`, without their latency traces. */
  function Plain(es: seq<GestureWithLatency>): seq<GestureEvent>
  {
    seq(|es|, k requires 0 <= k < |es| => es[k].event)
  }

  /** The events of `es` from position `i` on that the fling controller does
      not take; `captured` holds the positions it takes. */
  function Survivors(es: seq<GestureWithLatency>, captured: set<nat>, i: nat): seq<GestureWithLatency>
    requires i <= |es|
    decreases |es| - i
  {
    if i == |es| then []
    else (if i in captured then [] else [es[i]]) + Survivors(es, captured, i + 1)
  }

  /** The new outstanding entries forwarding each of `es` puts in the buffer. */
  function Outstandings(es: seq<GestureWithLatency>): (r: seq<PendingAck>)
    ensures |r| == |es|
  {
    if |es| == 0 then [] else [Outstanding(es[0])] + Outstandings(es[1..])
  }

  /** An uncaptured event at position `i` heads the survivors from `i`, so
      forwarding it and then the survivors after it extends a buffer `before`
      exactly as forwarding the survivors from `i` does. */
  lemma SurvivorsUncaptured(es: seq<GestureWithLatency>, captured: set<nat>, i: nat, before: seq<PendingAck>)
    requires i < |es| && i !in captured
    ensures before + [Outstanding(es[i])] + Outstandings(Survivors(es, captured, i + 1))
         == before + Outstandings(Survivors(es, captured, i))
    ensures Plain(Survivors(es, captured, i)) == [es[i].event] + Plain(Survivors(es, captured, i + 1))
    ensures ForwardCalls(Survivors(es, captured, i)) == ForwardCall(es[i]) + ForwardCalls(Survivors(es, captured, i + 1))
  {
    var rest := Survivors(es, captured, i + 1);
    assert Survivors(es, captured, i) == [es[i]] + rest;
    assert ([es[i]] + rest)[1..] == rest;
    assert Outstandings(Survivors(es, captured, i)) == [Outstanding(es[i])] + Outstandings(rest);
  }

  /** Forwards, in order, the events of `es` from position `i` on that the
      fling controller does not take: each one is sent and joins the tail of
      the acknowledgment buffer, and nothing else changes. */
  function ForwardSurvivors(q: Queue, es: seq<GestureWithLatency>, captured: set<nat>, i: nat): (r: Step)
    requires i <= |es| && NoFlingKinds(es)
    ensures r.q == q.(awaitingAck := q.awaitingAck + Outstandings(Survivors(es, captured, i)))
    ensures SentEvents(r.calls) == Plain(Survivors(es, captured, i))
    ensures AckedEvents(r.calls) == []
    ensures r.calls == ForwardCalls(Survivors(es, captured, i))
    decreases |es| - i
  {
    if i == |es| then
      assert q.awaitingAck + [] == q.awaitingAck;
      Step(q, [])
    else if i in captured then
      assert Survivors(es, captured, i) == Survivors(es, captured, i + 1);
      ForwardSurvivors(q, es, captured, i + 1)
    else
      var s := ForwardGestureEvent(q, es[i]);
      var t := ForwardSurvivors(s.q, es, captured, i + 1);
      SurvivorsUncaptured(es, captured, i, q.awaitingAck);
      SentEventsAppend(s.calls, t.calls);
      AckedEventsAppend(s.calls, t.calls);
      Step(t.q, s.calls + t.calls)
  }

  /** The debounce timer fires: scrolling is over, and every held-back event
      the fling controller does not now take is forwarded, in the order it
      was held back. The deferral queue ends up empty. */
  function SendScrollEndingEventsNow(q: Queue, captured: set<nat>): (r: Step)
    requires NoFlingKinds(q.deferral)
    ensures !r.q.scrolling && !r.q.timerArmed && r.q.deferral == []
    ensures SentEvents(r.calls) == Plain(Survivors(q.deferral, captured, 0))
    ensures AckedEvents(r.calls) == []
    ensures r.calls == ForwardCalls(Survivors(q.deferral, captured, 0))
    ensures |q.deferral| == 0 ==> r.calls == []
    ensures r.q.awaitingAck == q.awaitingAck + Outstandings(Survivors(q.deferral, captured, 0))
    ensures r.q.deferred == q.deferred && r.q.config == q.config && r.q.processingAcks == q.processingAcks
  {
    var stopped := q.(scrolling := false, timerArmed := false);
    if |q.deferral| == 0 then
      assert Survivors(q.deferral, captured, 0) == [];
      assert q.awaitingAck + [] == q.awaitingAck;
      Step(stopped, [])
    else ForwardSurvivors(stopped.(deferral := []), q.deferral, captured, 0)
  }

  /** Stashes an event on the owner's side queue. */
  function QueueDeferredEvents(q: Queue, e: GestureWithLatency): (r: Queue)
    ensures r.deferred == q.deferred + [e]
    ensures r == q.(deferred := r.deferred)
  {
    q.(deferred := q.deferred + [e])
  }

  /** Hands the whole side queue to the owner and leaves it empty. */
  function TakeDeferredEvents(q: Queue): (r: (seq<GestureWithLatency>, Queue))
    ensures r.0 == q.deferred && r.1.deferred == []
    ensures r.1 == q.(deferred := [])
  {
    (q.deferred, q.(deferred := []))
  }

  /** Stashes each of `es` on the side queue, in order. */
  function StashAll(q: Queue, es: seq<GestureWithLatency>): (r: Queue)
    ensures r == q.(deferred := r.deferred)
    decreases |es|
  {
    if |es| == 0 then q else StashAll(QueueDeferredEvents(q, es[0]), es[1..])
  }

  lemma {:induction false} StashAllAppends(q: Queue, es: seq<GestureWithLatency>)
    ensures StashAll(q, es).deferred == q.deferred + es
    decreases |es|
  {
    if |es| > 0 {
      StashAllAppends(QueueDeferredEvents(q, es[0]), es[1..]);
      assert q.deferred + [es[0]] + es[1..] == q.deferred + es;
    }
  }

  /** The side queue is first in, first out: taking after a series of stashes
      hands back what was there before followed by the stashed events, in the
      order stashed, and leaves the queue as it was but with the side queue
      empty. */
  lemma StashThenTake(q: Queue, es: seq<GestureWithLatency>)
    ensures TakeDeferredEvents(StashAll(q, es)).0 == q.deferred + es
    ensures TakeDeferredEvents(StashAll(q, es)).1 == q.(deferred := [])
  {
    StashAllAppends(q, es);
  }
}

=== FILE: gesture_queue_run.dfy ===
/**
 The gesture event queue driven by its owner: each step is one call into the
 queue, and the properties below hold of every sequence of such calls. The
 owner offers an event to the fling controller first and hands it to the
 debounce stage only when the controller did not take it.
 */
module GestureQueueRun {
  import opened Wrappers
  import opened GestureTypes
  import opened AckBuffer
  import opened GestureEventQueue

  /** One call into the queue, with the answers of the collaborators it
      consults: whether the fling controller takes the event and whether a
      fling is in progress; the client's reactions during the release pass;
      which held-back events the fling controller takes when the timer fires. */
  datatype Op =
    | Offer(e: GestureWithLatency, flingFiltered: bool, flingInProgress: bool)
    | Ack(call: AckCall, reactions: Reactions)
    | TimerFires(captured: set<nat>)
    | Stash(e: GestureWithLatency)
    | Take

  /** Every element of `es` is one of the events of `es` at or after `i` that
      is not captured, and every such event is an element. */
  lemma {:induction false} SurvivorsMembers(es: seq<GestureWithLatency>, captured: set<nat>, i: nat)
    requires i <= |es|
    ensures forall x :: x in Survivors(es, captured, i) <==> exists j :: i <= j < |es| && j !in captured && es[j] == x
    decreases |es| - i
  {
    if i < |es| {
      SurvivorsMembers(es, captured, i + 1);
    }
  }

  /** When the fling controller takes none of the held-back events, all of
      them are forwarded, in order. */
  lemma {:induction false} NothingCapturedForwardsAll(es: seq<GestureWithLatency>, i: nat)
    requires i <= |es|
    ensures Survivors(es, {}, i) == es[i..]
    decreases |es| - i
  {
    if i < |es| {
      NothingCapturedForwardsAll(es, i + 1);
      assert es[i..] == [es[i]] + es[i + 1..];
    }
  }

  /** Forwarding a list of events puts exactly those events, in order, in the
      acknowledgment buffer, each awaiting its acknowledgment. */
  lemma {:induction false} OutstandingsCarryEvents(es: seq<GestureWithLatency>)
    ensures Events(Outstandings(es)) == Plain(es)
    ensures forall k :: 0 <= k < |es| ==> Outstandings(es)[k].state == Unknown
    decreases |es|
  {
    if |es| > 0 {
      OutstandingsCarryEvents(es[1..]);
      var o := Outstandings(es);
      assert o[1..] == Outstandings(es[1..]);
      assert Events(o) == [o[0].event] + Events(o[1..]);
      assert Plain(es) == [es[0].event] + Plain(es[1..]);
    }
  }

  lemma SurvivorsKeepNoFling(es: seq<GestureWithLatency>, captured: set<nat>)
    requires NoFlingKinds(es)
    ensures NoFlingEvents(Plain(Survivors(es, captured, 0)))
  {
    var s := Survivors(es, captured, 0);
    SurvivorsMembers(es, captured, 0);
    forall k | 0 <= k < |s|
      ensures !IsFlingKind(Plain(s)[k].kind)
    {
      assert s[k] in s;
    }
  }

  /** The debounce stage keeps the queue valid. */
  lemma DebouncePreservesValid(q: Queue, e: GestureWithLatency, flingInProgress: bool)
    requires Valid(q) && !IsFlingKind(e.event.kind)
    ensures Valid(DebounceOrForwardEvent(q, e, flingInProgress).q)
  {
    var d := ShouldForwardForBounceReduction(q, e, flingInProgress);
    var r := DebounceOrForwardEvent(q, e, flingInProgress);
    if r.yes {
      EventsAppend(q.awaitingAck, [Outstanding(e)]);
      assert Events([Outstanding(e)]) == [e.event];
      assert r.q == d.q.(awaitingAck := q.awaitingAck + [Outstanding(e)]);
    }
  }

  /** An acknowledgment keeps the queue valid. */
  lemma AckPreservesValid(q: Queue, call: AckCall, reactions: Reactions)
    requires Valid(q)
    ensures Valid(ProcessGestureAck(q, call, reactions).q)
  {
    var r := ProcessGestureAck(q, call, reactions);
    var acked := AckedEvents(r.calls);
    assert forall k :: 0 <= k < |Events(r.q.awaitingAck)| ==>
             Events(r.q.awaitingAck)[k] == Events(q.awaitingAck)[|acked| + k];
  }

  /** The timer firing keeps the queue valid. */
  lemma TimerPreservesValid(q: Queue, captured: set<nat>)
    requires Valid(q)
    ensures Valid(SendScrollEndingEventsNow(q, captured).q)
  {
    var r := SendScrollEndingEventsNow(q, captured);
    var added := Outstandings(Survivors(q.deferral, captured, 0));
    EventsAppend(q.awaitingAck, added);
    OutstandingsCarryEvents(Survivors(q.deferral, captured, 0));
    SurvivorsKeepNoFling(q.deferral, captured);
    if |q.awaitingAck| == 0 {
      assert r.q.awaitingAck == added;
    } else {
      assert r.q.awaitingAck[0] == q.awaitingAck[0];
    }
  }

  /** One call into the queue. */
  function Apply(q: Queue, op: Op): (r: Step)
    requires Valid(q)
    ensures Valid(r.q)
    ensures r.q.config == q.config
  {
    match op
    case Offer(e, flingFiltered, flingInProgress) =>
      var f := FlingControllerFilterEvent(q, e, flingFiltered);
      if f.yes then Step(q, f.calls)
      else
        DebouncePreservesValid(q, e, flingInProgress);
        var d := DebounceOrForwardEvent(q, e, flingInProgress);
        Step(d.q, d.calls)
    case Ack(call, reactions) =>
      AckPreservesValid(q, call, reactions);
      ProcessGestureAck(q, call, reactions)
    case TimerFires(captured) =>
      TimerPreservesValid(q, captured);
      SendScrollEndingEventsNow(q, captured)
    case Stash(e) =>
      Step(QueueDeferredEvents(q, e), [])
    case Take =>
      Step(TakeDeferredEvents(q).1, [])
  }

  /** A sequence of calls into the queue, in order; the calls the queue makes
      are concatenated in the same order. */
  function Run(q: Queue, ops: seq<Op>): (r: Step)
    requires Valid(q)
    ensures Valid(r.q)
    decreases |ops|
  {
    if |ops| == 0 then Step(q, [])
    else
      var s := Apply(q, ops[0]);
      var t := Run(s.q, ops[1..]);
      Step(t.q, s.calls + t.calls)
  }

  /** A run is its first call followed by the run of the rest. */
  lemma RunFirst(q: Queue, ops: seq<Op>)
    requires Valid(q) && |ops| > 0
    ensures Run(q, ops).q == Run(Apply(q, ops[0]).q, ops[1..]).q
    ensures Run(q, ops).calls == Apply(q, ops[0]).calls + Run(Apply(q, ops[0]).q, ops[1..]).calls
  {
  }

  /** An acknowledgment call is `ProcessGestureAck`. */
  lemma ApplyAck(q: Queue, call: AckCall, reactions: Reactions)
    requires Valid(q)
    ensures Apply(q, Ack(call, reactions)) == ProcessGestureAck(q, call, reactions)
  {
  }

  /** The conservation law of one call: the events outstanding before, then
      those sent, are the events reported to the client, then those
      outstanding after. Nothing is lost, duplicated or reordered. */
  lemma ApplyBalances(q: Queue, op: Op)
    requires Valid(q)
    ensures Events(q.awaitingAck) + SentEvents(Apply(q, op).calls)
         == AckedEvents(Apply(q, op).calls) + Events(Apply(q, op).q.awaitingAck)
  {
    var r := Apply(q, op);
    match op
    case Offer(e, flingFiltered, flingInProgress) =>
      var f := FlingControllerFilterEvent(q, e, flingFiltered);
      if !f.yes {
        var d := DebounceOrForwardEvent(q, e, flingInProgress);
        if d.yes {
          EventsAppend(q.awaitingAck, [Outstanding(e)]);
          assert Events([Outstanding(e)]) == [e.event];
        }
      }
    case Ack(call, reactions) =>
    case TimerFires(captured) =>
      EventsAppend(q.awaitingAck, Outstandings(Survivors(q.deferral, captured, 0)));
      OutstandingsCarryEvents(Survivors(q.deferral, captured, 0));
    case Stash(e) =>
    case Take =>
  }

  /** Two balanced steps in a row balance. */
  lemma ChainBalances(e0: seq<GestureEvent>, s1: seq<GestureEvent>, a1: seq<GestureEvent>, e1: seq<GestureEvent>,
                      s2: seq<GestureEvent>, a2: seq<GestureEvent>, e2: seq<GestureEvent>)
    requires e0 + s1 == a1 + e1 && e1 + s2 == a2 + e2
    ensures e0 + (s1 + s2) == (a1 + a2) + e2
  {
    calc {
      e0 + (s1 + s2);
      (e0 + s1) + s2;
      (a1 + e1) + s2;
      a1 + (e1 + s2);
      a1 + (a2 + e2);
    }
  }

  /** The conservation law over any sequence of calls. */
  lemma {:induction false} RunBalances(q: Queue, ops: seq<Op>)
    requires Valid(q)
    ensures Events(q.awaitingAck) + SentEvents(Run(q, ops).calls)
         == AckedEvents(Run(q, ops).calls) + Events(Run(q, ops).q.awaitingAck)
    decreases |ops|
  {
    if |ops| == 0 {
      assert Events(q.awaitingAck) + [] == [] + Events(q.awaitingAck);
    } else {
      var s := Apply(q, ops[0]);
      var t := Run(s.q, ops[1..]);
      assert Run(q, ops) == Step(t.q, s.calls + t.calls);
      ApplyBalances(q, ops[0]);
      RunBalances(s.q, ops[1..]);
      SentEventsAppend(s.calls, t.calls);
      AckedEventsAppend(s.calls, t.calls);
      ChainBalances(Events(q.awaitingAck), SentEvents(s.calls), AckedEvents(s.calls), Events(s.q.awaitingAck),
                    SentEvents(t.calls), AckedEvents(t.calls), Events(t.q.awaitingAck));
    }
  }

  /** Acknowledgments reach the client in the order the events were sent:
      from a fresh queue, the reported events are always a prefix of the sent
      events, and the events still outstanding are exactly the rest. */
  lemma AcksFollowForwardingOrder(config: Config, ops: seq<Op>)
    ensures AckedEvents(Run(Init(config), ops).calls) <= SentEvents(Run(Init(config), ops).calls)
    ensures Events(Run(Init(config), ops).q.awaitingAck)
         == SentEvents(Run(Init(config), ops).calls)[|AckedEvents(Run(Init(config), ops).calls)|..]
  {
    RunBalances(Init(config), ops);
    var r := Run(Init(config), ops);
    assert Events(Init(config).awaitingAck) == [];
    assert SentEvents(r.calls) == AckedEvents(r.calls) + Events(r.q.awaitingAck);
  }

  /** One call into the queue reports to the client only entries whose
      acknowledgment has arrived. */
  lemma ApplyReportsAcknowledged(q: Queue, op: Op)
    requires Valid(q)
    ensures ReportsAcknowledged(Apply(q, op).calls)
  {
    match op
    case Offer(e, flingFiltered, flingInProgress) =>
      if !FlingControllerFilterEvent(q, e, flingFiltered).yes {
        NoAckedEventsNoReports(DebounceOrForwardEvent(q, e, flingInProgress).calls);
      }
    case Ack(call, reactions) =>
    case TimerFires(captured) =>
      NoAckedEventsNoReports(SendScrollEndingEventsNow(q, captured).calls);
    case Stash(e) =>
    case Take =>
  }

  /** Over any sequence of calls, the client is told only about events whose
      acknowledgment has arrived; nothing is reported early. */
  lemma {:induction false} RunReportsAcknowledged(q: Queue, ops: seq<Op>)
    requires Valid(q)
    ensures ReportsAcknowledged(Run(q, ops).calls)
    decreases |ops|
  {
    if |ops| > 0 {
      var s := Apply(q, ops[0]);
      var t := Run(s.q, ops[1..]);
      assert Run(q, ops) == Step(t.q, s.calls + t.calls);
      ApplyReportsAcknowledged(q, ops[0]);
      RunReportsAcknowledged(s.q, ops[1..]);
      ReportsAcknowledgedAppend(s.calls, t.calls);
    }
  }

  /** Acknowledging each of `cs`, in order, with no re-entrant reactions. */
  function AckOps(cs: seq<AckCall>): (r: seq<Op>)
    ensures |r| == |cs|
  {
    if |cs| == 0 then [] else [Ack(cs[0], [])] + AckOps(cs[1..])
  }

  /** No two outstanding entries share a kind. */
  predicate DistinctKinds(buf: seq<PendingAck>) {
    forall i, j :: 0 <= i < j < |buf| ==> buf[i].event.kind != buf[j].event.kind
  }

  /** Every outstanding entry either has its acknowledgment already or will
      get one from `cs`. */
  predicate Covered(buf: seq<PendingAck>, cs: seq<AckCall>) {
    forall i :: 0 <= i < |buf| ==>
      buf[i].state != Unknown || exists j :: 0 <= j < |cs| && cs[j].kind == buf[i].event.kind
  }

  /** With distinct kinds outstanding, an acknowledgment lands on the entry of
      its kind if that one still awaits it, and leaves every other entry as it
      was. */
  lemma MarkFirstDistinct(buf: seq<PendingAck>, call: AckCall)
    requires DistinctKinds(buf) && call.result != Unknown
    ensures forall k :: 0 <= k < |buf| && MarkFirst(buf, call)[k].state == Unknown ==>
              buf[k].state == Unknown && buf[k].event.kind != call.kind
  {
    MarkFirstTouchesFirstAwaiting(buf, call);
    forall k | 0 <= k < |buf|
      ensures MarkFirst(buf, call)[k].state == Unknown ==> buf[k].state == Unknown && buf[k].event.kind != call.kind
    {
      if Awaits(buf[k], call.kind) {
        assert forall j :: 0 <= j < k ==> !Awaits(buf[j], call.kind);
        assert MarkFirst(buf, call)[k].state == call.result;
      }
    }
  }

  /** Recording one acknowledgment keeps the kinds distinct, and every entry
      that still waits is covered by the acknowledgments still to come. */
  lemma MarkKeepsCoverage(buf: seq<PendingAck>, c: AckCall, cs: seq<AckCall>)
    requires DistinctKinds(buf) && Covered(buf, [c] + cs) && c.result != Unknown
    ensures DistinctKinds(MarkFirst(buf, c))
    ensures Covered(MarkFirst(buf, c), cs)
  {
    var m := MarkFirst(buf, c);
    MarkFirstDistinct(buf, c);
    forall i | 0 <= i < |m| && m[i].state == Unknown
      ensures exists j :: 0 <= j < |cs| && cs[j].kind == m[i].event.kind
    {
      var j :| 0 <= j < |[c] + cs| && ([c] + cs)[j].kind == buf[i].event.kind;
      assert cs[j - 1].kind == m[i].event.kind;
    }
  }

  /** Dropping entries from the front keeps both conditions. */
  lemma SuffixKeepsCoverage(buf: seq<PendingAck>, n: nat, cs: seq<AckCall>)
    requires n <= |buf| && DistinctKinds(buf) && Covered(buf, cs)
    ensures DistinctKinds(buf[n..]) && Covered(buf[n..], cs)
  {
    assert forall i :: 0 <= i < |buf| - n ==> buf[n..][i] == buf[n + i];
  }

  /** One acknowledgment keeps the kinds distinct, and every entry left that
      still waits is covered by the acknowledgments still to come. */
  lemma AckKeepsCoverage(buf: seq<PendingAck>, c: AckCall, cs: seq<AckCall>)
    requires DistinctKinds(buf) && Covered(buf, [c] + cs) && c.result != Unknown
    ensures DistinctKinds(Release(MarkFirst(buf, c), []).remaining)
    ensures Covered(Release(MarkFirst(buf, c), []).remaining, cs)
  {
    var m := MarkFirst(buf, c);
    var rel := Release(m, []);
    ReleaseWithoutReactionSplits(m);
    assert rel.remaining == m[|rel.released|..];
    MarkKeepsCoverage(buf, c, cs);
    SuffixKeepsCoverage(m, |rel.released|, cs);
  }

  /** Acknowledging each of `cs` in turn, straight through `ProcessGestureAck`. */
  function AckRun(q: Queue, cs: seq<AckCall>): (r: Step)
    ensures SentEvents(r.calls) == []
    ensures r.q.processingAcks == q.processingAcks
    decreases |cs|
  {
    if |cs| == 0 then Step(q, [])
    else
      var s := ProcessGestureAck(q, cs[0], []);
      var t := AckRun(s.q, cs[1..]);
      SentEventsAppend(s.calls, t.calls);
      Step(t.q, s.calls + t.calls)
  }

  lemma {:induction false} RunOfAcks(q: Queue, cs: seq<AckCall>)
    requires Valid(q)
    ensures Run(q, AckOps(cs)) == AckRun(q, cs)
    decreases |cs|
  {
    if |cs| > 0 {
      var ops := AckOps(cs);
      assert ops[0] == Ack(cs[0], []) && ops[1..] == AckOps(cs[1..]);
      RunFirst(q, ops);
      ApplyAck(q, cs[0], []);
      RunOfAcks(ProcessGestureAck(q, cs[0], []).q, cs[1..]);
    }
  }

  lemma {:induction false} AckRunDrains(q: Queue, cs: seq<AckCall>)
    requires Settled(q.awaitingAck) && !q.processingAcks
    requires DistinctKinds(q.awaitingAck) && Covered(q.awaitingAck, cs)
    requires forall j :: 0 <= j < |cs| ==> cs[j].result != Unknown
    ensures AckRun(q, cs).q.awaitingAck == []
    decreases |cs|
  {
    if |cs| > 0 {
      var s := ProcessGestureAck(q, cs[0], []);
      if |q.awaitingAck| > 0 {
        assert [cs[0]] + cs[1..] == cs;
        AckKeepsCoverage(q.awaitingAck, cs[0], cs[1..]);
        assert s.q.awaitingAck == Release(MarkFirst(q.awaitingAck, cs[0]), []).remaining;
      }
      AckRunDrains(s.q, cs[1..]);
    }
  }

  /** Completeness of the reordering: when the outstanding entries have
      distinct kinds and acknowledgments arrive for all of them, in any order,
      the buffer drains completely and nothing is sent on the way. */
  lemma DistinctAcksDrain(q: Queue, cs: seq<AckCall>)
    requires Valid(q) && DistinctKinds(q.awaitingAck) && Covered(q.awaitingAck, cs)
    requires forall j :: 0 <= j < |cs| ==> cs[j].result != Unknown
    ensures Run(q, AckOps(cs)).q.awaitingAck == []
    ensures SentEvents(Run(q, AckOps(cs)).calls) == []
  {
    RunOfAcks(q, cs);
    AckRunDrains(q, cs);
  }

  /** ... and the client is told about every one of them, in the order they
      were sent, whatever order the acknowledgments arrived in. */
  lemma DistinctAcksReportInSendOrder(q: Queue, cs: seq<AckCall>)
    requires Valid(q) && DistinctKinds(q.awaitingAck) && Covered(q.awaitingAck, cs)
    requires forall j :: 0 <= j < |cs| ==> cs[j].result != Unknown
    ensures AckedEvents(Run(q, AckOps(cs)).calls) == Events(q.awaitingAck)
  {
    var r := Run(q, AckOps(cs));
    DistinctAcksDrain(q, cs);
    RunBalances(q, AckOps(cs));
    assert Events(r.q.awaitingAck) == [] && SentEvents(r.calls) == [];
    calc {
      Events(q.awaitingAck);
      Events(q.awaitingAck) + SentEvents(r.calls);
      AckedEvents(r.calls) + Events(r.q.awaitingAck);
      AckedEvents(r.calls);
    }
  }

  /** An acknowledgment the client sends while being told about an earlier
      event is not lost: when it completes the next entry, that entry is
      reported in the same pass, right after. */
  lemma NestedAckReleasedInSamePass(buf: seq<PendingAck>, call: AckCall)
    requires |buf| >= 2 && buf[0].state != Unknown && Awaits(buf[1], call.kind)
    requires call.result != Unknown
    ensures |Release(buf, [[call]]).released| >= 2
    ensures Release(buf, [[call]]).released[1] == Acked(buf[1], call)
  {
    MarkFirstTouchesFirstAwaiting(buf, call);
    var marked := buf[1 := Acked(buf[1], call)];
    assert AfterReaction(buf, [[call]]) == marked;
    assert ReleaseFrom(buf, [[call]], 0) == ReleaseFrom(marked, [], 1);
  }

  /** Several acknowledgments the client sends while being told about one
      event are recorded in the order it sent them: when they complete the
      next two entries, both are reported in the same pass, in buffer order. */
  lemma NestedAcksReleasedInSamePass(buf: seq<PendingAck>, c1: AckCall, c2: AckCall)
    requires |buf| >= 3 && buf[0].state != Unknown
    requires Awaits(buf[1], c1.kind) && Awaits(buf[2], c2.kind)
    requires c1.result != Unknown && c2.result != Unknown
    ensures |Release(buf, [[c1, c2]]).released| >= 3
    ensures Release(buf, [[c1, c2]]).released[1] == Acked(buf[1], c1)
    ensures Release(buf, [[c1, c2]]).released[2] == Acked(buf[2], c2)
  {
    MarkFirstTouchesFirstAwaiting(buf, c1);
    var m1 := buf[1 := Acked(buf[1], c1)];
    MarkFirstTouchesFirstAwaiting(m1, c2);
    var m2 := m1[2 := Acked(buf[2], c2)];
    assert MarkEach(m1, [c2]) == m2;
    assert [c1, c2][1..] == [c2];
    assert AfterReaction(buf, [[c1, c2]]) == m2;
    assert ReleaseFrom(buf, [[c1, c2]], 0) == ReleaseFrom(m2, [], 1);
    assert ReleaseFrom(m2, [], 1) == ReleaseFrom(m2, [], 2);
  }

  // Bounce reduction, for the usual offers: the fling controller takes
  // nothing and no fling is in progress.

  /** A gesture that bounce reduction holds back while a scroll is going on:
      neither a scroll update, a pinch nor a fling. */
  predicate HeldWhileScrolling(e: GestureWithLatency) {
    !IsFlingKind(e.event.kind) && !IsPinchKind(e.event.kind) && e.event.kind != ScrollUpdate
  }

  /** A tap (say) arriving mid-scroll is held back, and a further scroll
      update drops it: only the two scroll updates are sent, and nothing is
      left held back. */
  lemma ScrollUpdateDropsHeldEvent(q: Queue, u1: GestureWithLatency, t: GestureWithLatency, u2: GestureWithLatency)
    requires DebounceEnabled(q)
    requires u1.event.kind == ScrollUpdate && u2.event.kind == ScrollUpdate && HeldWhileScrolling(t)
    ensures var r1 := DebounceOrForwardEvent(q, u1, false);
            var r2 := DebounceOrForwardEvent(r1.q, t, false);
            var r3 := DebounceOrForwardEvent(r2.q, u2, false);
            && r1.yes && !r2.yes && r3.yes
            && SentEvents(r1.calls + r2.calls + r3.calls) == [u1.event, u2.event]
            && r3.q.deferral == []
  {
    var r1 := DebounceOrForwardEvent(q, u1, false);
    var r2 := DebounceOrForwardEvent(r1.q, t, false);
    var r3 := DebounceOrForwardEvent(r2.q, u2, false);
    assert r1.q.scrolling;
    SentEventsAppend(r1.calls, r2.calls);
    SentEventsAppend(r1.calls + r2.calls, r3.calls);
  }

  /** A tap held back mid-scroll goes out exactly once when the timer fires,
      unless the fling controller takes it then; either way scrolling is over
      and nothing is left held back. */
  lemma TimerReleasesHeldEvent(q: Queue, u: GestureWithLatency, t: GestureWithLatency, flingTakesIt: bool)
    requires DebounceEnabled(q)
    requires u.event.kind == ScrollUpdate && HeldWhileScrolling(t)
    ensures var r1 := DebounceOrForwardEvent(q, u, false);
            var r2 := DebounceOrForwardEvent(r1.q, t, false);
            && NoFlingKinds(r2.q.deferral)
            && var r3 := SendScrollEndingEventsNow(r2.q, if flingTakesIt then {0} else {});
            && SentEvents(r1.calls + r2.calls + r3.calls) == [u.event] + (if flingTakesIt then [] else [t.event])
            && !r3.q.scrolling && r3.q.deferral == []
  {
    var captured: set<nat> := if flingTakesIt then {0} else {};
    var r1 := DebounceOrForwardEvent(q, u, false);
    var r2 := DebounceOrForwardEvent(r1.q, t, false);
    assert r2.q.deferral == [t];
    var r3 := SendScrollEndingEventsNow(r2.q, captured);
    assert Survivors([t], captured, 1) == [];
    assert Plain(Survivors([t], captured, 0)) == if flingTakesIt then [] else [t.event];
    SentEventsAppend(r1.calls, r2.calls);
    SentEventsAppend(r1.calls + r2.calls, r3.calls);
  }
}

=== FILE: gesture_types.dfy ===
/**
 Values that flow through the gesture event queue: gesture kinds, events with
 their latency trace, outstanding acknowledgments, and the calls the queue makes
 into its collaborators (the client, the fling controller and the debounce timer).
 */
module GestureTypes {

  /** The gesture kinds the queue distinguishes. Every other kind (taps,
      long-press, show-press, ...) is `Other`, identified by an opaque code. */
  datatype Kind =
    | ScrollBegin
    | ScrollUpdate
    | ScrollEnd
    | PinchBegin
    | PinchUpdate
    | PinchEnd
    | FlingStart
    | FlingCancel
    | Other(code: nat)

  /** Kinds owned by the fling controller; they must never be forwarded. */
  predicate IsFlingKind(k: Kind) {
    k.FlingStart? || k.FlingCancel?
  }

  /** Kinds the debounce stage forwards regardless of scrolling. */
  predicate IsPinchKind(k: Kind) {
    k.PinchBegin? || k.PinchUpdate? || k.PinchEnd?
  }

  /** A gesture event; its payload (deltas, device source, ...) is opaque. */
  datatype GestureEvent = GestureEvent(kind: Kind, payload: nat)

  /** A latency trace, as the set of latency components recorded so far.
      Merging another trace adds the components not already present. */
  type Latency = set<nat>

  /** An event together with its latency trace, as handed to the queue. */
  datatype GestureWithLatency = GestureWithLatency(event: GestureEvent, latency: Latency)

  /** The consumer's verdict on an event. `Unknown` means "not acknowledged yet";
      the queue only ever distinguishes `Unknown` from everything else. */
  datatype AckState = Unknown | Consumed | NotConsumed | OtherResult(code: nat)

  /** Where an acknowledgment came from; opaque apart from the default. */
  datatype AckSource = UnknownSource | Source(tag: nat)

  /** A forwarded event awaiting its acknowledgment. */
  datatype PendingAck = PendingAck(event: GestureEvent, latency: Latency, state: AckState, source: AckSource)

  /** One call the queue makes into a collaborator, in the order it makes them. */
  datatype ClientCall =
    | Send(sent: GestureWithLatency)          // client: send the event to the renderer
    | AckToClient(acked: PendingAck)           // client: report the event's acknowledgment
    | FlingStartHandled(start: GestureWithLatency)   // fling controller takes a fling start
    | FlingCancelHandled(cancel: GestureWithLatency) // fling controller takes a fling cancel
    | RegisterFlingObserver                    // fling controller: watch the scheduler
    | UnregisterFlingObserver                  // fling controller: stop watching it
    | TimerStart                               // debounce timer started
    | TimerReset                               // debounce timer extended

  /** The events of the `Send` calls in `calls`, in order. */
  function SentEvents(calls: seq<ClientCall>): seq<GestureEvent>
  {
    if |calls| == 0 then []
    else (if calls[0].Send? then [calls[0].sent.event] else []) + SentEvents(calls[1..])
  }

  /** The events of the `AckToClient` calls in `calls`, in order. */
  function AckedEvents(calls: seq<ClientCall>): seq<GestureEvent>
  {
    if |calls| == 0 then []
    else (if calls[0].AckToClient? then [calls[0].acked.event] else []) + AckedEvents(calls[1..])
  }

  /** Every report to the client in `calls` carries an entry whose
      acknowledgment has arrived. */
  predicate ReportsAcknowledged(calls: seq<ClientCall>) {
    forall i :: 0 <= i < |calls| && calls[i].AckToClient? ==> calls[i].acked.state != Unknown
  }

  lemma ReportsAcknowledgedAppend(a: seq<ClientCall>, b: seq<ClientCall>)
    requires ReportsAcknowledged(a) && ReportsAcknowledged(b)
    ensures ReportsAcknowledged(a + b)
  {
    assert forall i :: |a| <= i < |a + b| ==> (a + b)[i] == b[i - |a|];
  }

  /** Calls that report no event to the client contain no report at all. */
  lemma {:induction false} NoAckedEventsNoReports(calls: seq<ClientCall>)
    requires AckedEvents(calls) == []
    ensures forall i :: 0 <= i < |calls| ==> !calls[i].AckToClient?
    decreases |calls|
  {
    if |calls| > 0 {
      NoAckedEventsNoReports(calls[1..]);
      assert forall i :: 1 <= i < |calls| ==> calls[i] == calls[1..][i - 1];
    }
  }

  /** The events of outstanding acknowledgments, in buffer order. */
  function Events(buf: seq<PendingAck>): (r: seq<GestureEvent>)
    ensures |r| == |buf|
  {
    if |buf| == 0 then [] else [buf[0].event] + Events(buf[1..])
  }

  /** Buffers whose entries carry the same events, position by position, have
      the same event sequence. */
  lemma {:induction false} EventsPointwise(a: seq<PendingAck>, b: seq<PendingAck>)
    requires |a| == |b|
    requires forall i :: 0 <= i < |a| ==> a[i].event == b[i].event
    ensures Events(a) == Events(b)
    decreases |a|
  {
    if |a| > 0 {
      EventsPointwise(a[1..], b[1..]);
    }
  }

  lemma {:induction false} EventsAppend(a: seq<PendingAck>, b: seq<PendingAck>)
    ensures Events(a + b) == Events(a) + Events(b)
    decreases |a|
  {
    if |a| == 0 {
      assert a + b == b;
    } else {
      var ab := a + b;
      assert ab[0] == a[0] && ab[1..] == a[1..] + b;
      EventsAppend(a[1..], b);
      assert Events(ab) == [a[0].event] + Events(ab[1..]);
    }
  }

  lemma {:induction false} SentEventsAppend(a: seq<ClientCall>, b: seq<ClientCall>)
    ensures SentEvents(a + b) == SentEvents(a) + SentEvents(b)
    decreases |a|
  {
    if |a| == 0 {
      assert a + b == b;
    } else {
      var ab := a + b;
      assert ab[0] == a[0] && ab[1..] == a[1..] + b;
      SentEventsAppend(a[1..], b);
      assert SentEvents(ab) == (if a[0].Send? then [a[0].sent.event] else []) + SentEvents(ab[1..]);
    }
  }

  lemma {:induction false} AckedEventsAppend(a: seq<ClientCall>, b: seq<ClientCall>)
    ensures AckedEvents(a + b) == AckedEvents(a) + AckedEvents(b)
    decreases |a|
  {
    if |a| == 0 {
      assert a + b == b;
    } else {
      var ab := a + b;
      assert ab[0] == a[0] && ab[1..] == a[1..] + b;
      AckedEventsAppend(a[1..], b);
      assert AckedEvents(ab) == (if a[0].AckToClient? then [a[0].acked.event] else []) + AckedEvents(ab[1..]);
    }
  }
}

=== FILE: wrappers.dfy ===
/** The optional-value datatype shared by both parts of the model. */
module Wrappers {

  /** A value that may be missing: a parse that failed, a search that found nothing. */
  datatype Option<+T> = None | Some(value: T) {

    /** The carried value, or `default` when there is none. */
    function GetOr(default: T): T {
      match this
      case Some(v) => v
      case None => default
    }
  }
}
